=== FILE: README.md ===
# IPv4 address allocator

A Dafny model of the address allocator in `Util.findSmallestAvailableIp`,
together with the dotted-quad validator `Util.isValidIPv4`.

The server keeps one address for itself and hands out further addresses of
its subnet to clients. The allocator takes three inputs: the server's
address, the prefix length of the subnet, and the addresses already taken.
For prefix lengths 1 to 32 and well-formed addresses it returns the dotted
quad of the numerically smallest address of the server's subnet that is
neither the server's nor taken, and null when no such address exists. The
subnet is the CIDR block of section 3.1 of RFC
4632: the addresses that agree with the server's in the top `prefixLength`
bits.

- **Encoding (`ipToNumber`).** `(acc << 8) + parseInt(part, 10)` runs on a
  signed 32-bit reading of the accumulator. An address whose first octet is
  128 or more therefore encodes as a negative number.
  - The mask, the range bounds, the exclusion set and the loop counter all
    use this signed encoding.
  - `numberToIp` reads the four octets back with `>>>` and `&`.
  - The model proves that for prefix lengths 1 to 32 this signed scan finds
    exactly the numerically smallest free unsigned address
    (`Allocator.UnsignedAgreement`, `Allocator.AllocateInSubnet`).
- **Prefix length 0 gives null.** `~(2 ** 32 - 1)` is 0, so the range is
  [0, -1] and the loop never runs. The answer is always null, although a /0
  subnet holds every address (`Allocator.PrefixZeroYieldsNull`).
- **Prefix length 32 gives null for a server address that passes
  isValidIPv4.** The range is the server's own number, which is excluded
  (`Allocator.PrefixThirtyTwoYieldsNull`). A server address that encodes to
  NaN is different: `NaN & -1` is 0, so the range is [0, 0], and the answer
  is `"0.0.0.0"` unless a taken address encodes to 0.
- **The validator is lenient.** `parseInt` skips leading white space,
  accepts a sign and ignores anything after the digits. So `isValidIPv4`
  accepts `"1a.2.3.4"` and `"-0.0.0.0"` and refuses `"-1.0.0.0"`, `"1..2.3"`
  and `"256.0.0.0"`.

## Layout

| module | file | contents |
|---|---|---|
| `JsNumber` | `jsnumber.dfy` | JavaScript numbers (an integer or NaN), ToInt32/ToUint32, `&`, `\|`, `~`, `<<`, `>>>` on 32-bit values, powers of two |
| `JsString` | `jsstring.dfy` | `split('.')`, `join('.')`, `parseInt(_, 10)`, decimal printing |
| `Validator` | `validator.dfy` | `isValidIPv4` |
| `Codec` | `codec.dfy` | `ipToNumber`, `numberToIp`, their unsigned readings and round trips |
| `Subnet` | `subnet.dfy` | the mask, `rangeStart`, `rangeEnd`, and the block they describe |
| `Allocator` | `allocator.dfy` | the exclusion set, the scan, `findSmallestAvailableIp`, and what its answer means |

The bitwise operators are defined arithmetically: recursive AND and OR on
naturals, and ToInt32/ToUint32 as remainders modulo 2^32. The mask and
range lemmas connect these definitions to "clear the low bits" and "set the
low bits".

## Model

| member | source | states |
|---|---|---|
| `Validator.AllBlocksValid` | src/lib/Util.js:11-17 | the loop accepts a list of blocks exactly when every block parses to a number in [0, 255]; one NaN or out-of-range block refuses |
| `Validator.IsValidIPv4` | src/lib/Util.js:7-18 | a string passes exactly when splitting on '.' gives four blocks and each parses to an octet; any other block count refuses |
| `Validator.ValidFromBlocks` | src/lib/Util.js:8-17 | four dot-free blocks joined by dots pass exactly when each of the four parses to an octet |
| `Validator.AcceptsTrailingText` | src/lib/Util.js:12-14 | a block of octet digits followed by text that does not start with a digit is accepted ("1a.2.3.4") |
| `Validator.AcceptsNegativeZero` | src/lib/Util.js:12-14 | a block of a minus sign and digits spelling zero is accepted ("-0.0.0.0") |
| `Validator.RejectsNegativeBlock` | src/lib/Util.js:14 | a block of a minus sign and a non-zero number makes the address invalid |
| `Validator.RejectsEmptyBlock` | src/lib/Util.js:13 | an empty block (adjacent, leading or trailing dots) parses to NaN and makes the address invalid |
| `Validator.RejectsLargeBlock` | src/lib/Util.js:14 | a block whose digits spell more than 255 makes the address invalid |
| `JsString.Split` | src/lib/Util.js:8 | `split('.')`: at least one piece, none holding a dot; its inverse is stated by JsString.JoinSplit and JsString.SplitJoin |
| `JsString.Join` | src/lib/Util.js:87 | definition of `join('.')`; its relation to split is stated by JsString.JoinSplit and JsString.SplitJoin |
| `JsString.ParseInt` | src/lib/Util.js:12 | parseInt gives NaN exactly when, after leading white space and an optional sign, the text does not start with a digit; its numeric values are stated by JsString.ParseIntValue |
| `JsString.NumberToString` | src/lib/Util.js:87 | the text printed for a non-negative integer is canonical decimal, and parseInt reads every printed integer back to itself |
| `JsString.ParseIntValue` | src/lib/Util.js:12 | white space, an optional '+' or '-', a non-empty digit run and anything not starting with a digit parse to the digits' value, negated after '-'; with ParseInt's NaN case this determines parseInt on every text |
| `JsString.SignThen` | src/lib/Util.js:12 | text made of an optional sign, digits and a non-digit rest does not start with white space and parses to the signed value of the digits |
| `JsString.JoinSplit` | src/lib/Util.js:83 | joining the pieces of `split('.')` with '.' gives back the original text |
| `JsString.SplitJoin` | src/lib/Util.js:87 | splitting the '.'-join of dot-free pieces gives back the pieces |
| `JsString.Decimal` | src/lib/Util.js:87 | the printed decimal form of a non-negative integer has no superfluous leading zero and its digits denote the integer |
| `JsString.DecimalOfDigits` | src/lib/Util.js:87 | canonical decimal text is exactly what printing its own value gives |
| `JsString.ParseDigitsThen` | src/lib/Util.js:12 | parseInt of digits followed by text that does not start with a digit is the number the digits denote; the rest is ignored |
| `JsString.ParseNegative` | src/lib/Util.js:12 | parseInt of a minus sign and digits is the negated number |
| `JsString.ParseDecimal` | src/lib/Util.js:83 | parseInt reads back every printed non-negative integer |
| `JsString.TrimStartSpec` | src/lib/Util.js:12 | the white space skipped before the number is a prefix made only of white space, and what remains does not start with white space |
| `JsString.LeadingDigitsSpec` | src/lib/Util.js:12 | the digits parseInt reads are a prefix of the text, all digits, and the longest such prefix |
| `JsNumber.Add` | src/lib/Util.js:83 | the `+` of a reduce step is a number exactly when both operands are numbers (NaN absorbs); the sum is exact |
| `JsNumber.ToUint32` | src/lib/Util.js:87 | the unsigned 32-bit reading lies in [0, 2^32) and leaves such values unchanged |
| `JsNumber.ToInt32` | src/lib/Util.js:83 | the signed 32-bit reading lies in [-2^31, 2^31), leaves such values unchanged and keeps the unsigned reading |
| `JsString.TrimStart` | src/lib/Util.js:12 | definition of the white space parseInt skips; described by JsString.TrimStartSpec |
| `JsString.LeadingDigits` | src/lib/Util.js:12 | definition of the digit run parseInt reads; described by JsString.LeadingDigitsSpec |
| `Codec.ParseBlocks` | src/lib/Util.js:83 | definition of `parseInt(part, 10)` on each block; described by Codec.ParsedOctets |
| `Codec.ShiftAdd` | src/lib/Util.js:83 | definition of one reduce step `(acc << 8) + value`; described by Codec.ShiftAddOctet |
| `Codec.Fold` | src/lib/Util.js:83 | definition of the reduce from 0 over the parsed blocks; described by Codec.FoldOctets |
| `Codec.IpToNumber` | src/lib/Util.js:82-84 | definition of ipToNumber; described by Codec.EncodeValid and the round trips |
| `Codec.NumberToIp` | src/lib/Util.js:86-88 | definition of numberToIp; described by Codec.DecodeFormats and Codec.FormatIsValid |
| `Codec.ShiftAddOctet` | src/lib/Util.js:83 | one reduce step on the signed reading of a 24-bit prefix and an octet gives the signed reading of the 32-bit value prefix * 256 + octet |
| `Codec.FoldOctets` | src/lib/Util.js:83 | folding four octets from 0 gives the signed 32-bit reading of the address they spell |
| `Codec.EncodeValid` | src/lib/Util.js:82-84 | for a valid address ipToNumber is the signed reading of its unsigned address: the address itself below 2^31, the address minus 2^32 from 2^31 on |
| `Codec.DecodeFormats` | src/lib/Util.js:86-88 | numberToIp of any integer is the canonical dotted quad of its unsigned 32-bit reading |
| `Codec.FormatIsValid` | src/lib/Util.js:86-88 | the dotted quad printed for an unsigned 32-bit address passes isValidIPv4 and denotes that address |
| `Codec.NumberRoundTrip` | src/lib/Util.js:82-88 | ipToNumber of numberToIp(n) gives n reduced to a signed 32-bit value, and gives n itself when n is a signed 32-bit value |
| `Codec.TextRoundTrip` | src/lib/Util.js:82-88 | a canonical dotted quad (four blocks, octet values, no leading zeros) is valid and numberToIp of its ipToNumber gives back the same text |
| `JsNumber.NumberToInt32` | src/lib/Util.js:92 | the operand conversion of a bitwise operator gives a signed 32-bit value, 0 for NaN, congruent to an integer operand modulo 2^32 |
| `JsNumber.And` | src/lib/Util.js:87 | `&` gives a signed 32-bit value; its meaning on a mask is stated by Subnet.MaskAnd |
| `JsNumber.Or` | src/lib/Util.js:93 | bitwise OR gives a signed 32-bit value; its meaning on the low bits is stated by Subnet.MaskOr |
| `JsNumber.Not` | src/lib/Util.js:91 | `~x` is a signed 32-bit value whose unsigned reading is the 32-bit complement of x's, which is -x - 1 on the signed reading |
| `JsNumber.ShiftLeft` | src/lib/Util.js:83 | `<<` gives a signed 32-bit value; one reduce step is described by Codec.ShiftAddOctet |
| `JsNumber.UnsignedShiftRight` | src/lib/Util.js:87 | `>>>` gives an unsigned 32-bit value; the octets it reads are described by Codec.DecodeFormats |
| `Subnet.Mask` | src/lib/Util.js:91 | the mask is a signed 32-bit value whose unsigned reading has ones in exactly the top prefixLength bits |
| `Subnet.MaskAnd` | src/lib/Util.js:92 | AND with the mask clears the low 32 - prefixLength bits: it rounds the address down to its network address |
| `Subnet.MaskOr` | src/lib/Util.js:93 | OR with the complement of the mask sets the low bits: it gives the last address of the block and stays below 2^32 |
| `Subnet.Network` | src/lib/Util.js:92 | the network address is a multiple of the block size, at most the address, less than a block below it, and its block ends at or below 2^32 |
| `Subnet.RangeStart` | src/lib/Util.js:92 | rangeStart is a signed 32-bit value whose unsigned reading is the network address of the server's unsigned address (0 when the server number is NaN) |
| `Subnet.RangeEnd` | src/lib/Util.js:93 | rangeEnd is a signed 32-bit value whose unsigned reading is the last address of the block that starts at rangeStart |
| `Subnet.PrefixZeroRange` | src/lib/Util.js:91-93 | for prefix length 0 the mask is 0, rangeStart is 0 and rangeEnd is -1 |
| `Subnet.NetworkOfNetwork` | src/lib/Util.js:92 | masking twice is masking once: a network address is its own network |
| `Subnet.SameBlock` | src/lib/Util.js:92-93 | every address between the network address and the end of its block has that same network address |
| `Subnet.SignedRange` | src/lib/Util.js:91-93 | for prefix lengths 1 to 32 the signed range holds the server number and is the unsigned block shifted down by 0 or 2^32 as a whole, never straddling the sign change |
| `Allocator.ExclusionSet` | src/lib/Util.js:95-96 | the set holds the server's number and every taken address's number, and nothing else |
| `Allocator.Integers` | src/lib/Util.js:99 | `has(ip)` on an integer ip holds exactly when that integer is in the set; a NaN entry matches no integer |
| `Allocator.Scan` | src/lib/Util.js:98-102 | definition of the integer the loop stops at; described by Allocator.ScanRange and Allocator.AllocateMeaning |
| `Allocator.Answer` | src/lib/Util.js:99-104 | definition of the value returned for the stop, its numberToIp text or null; described by Allocator.AnswerMeaning |
| `Allocator.Allocate` | src/lib/Util.js:80-105 | definition of findSmallestAvailableIp as a function; described by Allocator.AllocateMeaning and Allocator.AllocateInSubnet |
| `Allocator.FirstFree` | src/lib/Util.js:98-102 | the integer the scan stops at lies in the range and is not excluded |
| `Allocator.FirstFreeSpec` | src/lib/Util.js:98-104 | every integer of the range below the stop is excluded, and the scan finds nothing exactly when the whole range is excluded |
| `Allocator.FirstFreeUnique` | src/lib/Util.js:98-104 | any result that is in range, not excluded and least (or none when all are excluded) is the scan's result |
| `Allocator.ScanRange` | src/lib/Util.js:98-104 | the loop returns an integer of the range that is not excluded with every smaller integer of the range excluded, and returns none exactly when the whole range is excluded |
| `Allocator.FindSmallestAvailableIp` | src/lib/Util.js:80-105 | the method computes the allocation and any address it returns passes isValidIPv4 |
| `Allocator.RangeOrdered` | src/lib/Util.js:91-93 | for every prefix length 0 to 32 the range start is at most one above the range end |
| `Allocator.AnswerMeaning` | src/lib/Util.js:98-104 | the answer is null exactly when every integer of [start, end] is excluded, and otherwise the text of the least integer of the range that is not |
| `Allocator.AllocateMeaning` | src/lib/Util.js:80-105 | findSmallestAvailableIp is null exactly when every integer of its computed range is excluded, and otherwise the text of the least non-excluded integer of that range |
| `Allocator.PrefixZeroYieldsNull` | src/lib/Util.js:91-104 | with prefix length 0 the answer is null for every input |
| `Allocator.PrefixThirtyTwoYieldsNull` | src/lib/Util.js:91-101 | with prefix length 32 the answer is null whenever the server number is a signed 32-bit integer, as for every valid address |
| `Allocator.SingleAddressRange` | src/lib/Util.js:91-93 | with prefix length 32 the range is the single signed reading of the server number |
| `Allocator.AllocatedIsFree` | src/lib/Util.js:95-101 | the address handed out is valid and encodes to a number different from the server's and from every taken address's |
| `Allocator.UnsignedMembership` | src/lib/Util.js:99 | a signed 32-bit integer is excluded exactly when its unsigned reading is among the exclusions read as unsigned addresses |
| `Allocator.ShiftedScan` | src/lib/Util.js:98-102 | shifting the scanned interval by 0 or 2^32 into the unsigned range shifts the stop by the same amount, with the exclusions read as unsigned |
| `Allocator.BlockAnswer` | src/lib/Util.js:98-104 | the answer of a signed scan that is a shifted copy of a block equals the least-free-address answer for that block in unsigned terms |
| `Allocator.SubnetAnswerMeaning` | src/lib/Util.js:98-104 | the unsigned reference answer is null exactly when the whole block is taken; otherwise a valid dotted quad in the block, not taken, and the least such |
| `Allocator.UnsignedAgreement` | src/lib/Util.js:91-104 | for prefix lengths 1 to 32 the signed scan gives the same answer as the unsigned reference on the server's block |
| `Allocator.ExclusionsAsAddresses` | src/lib/Util.js:95-96 | on valid input, the exclusion set read as unsigned addresses is exactly the set of the server's and the taken addresses |
| `Allocator.AllocateValid` | src/lib/Util.js:80-105 | on valid input and prefix lengths 1 to 32 the answer equals the unsigned reference answer for the server's address and the taken addresses |
| `Allocator.AllocateInSubnet` | src/lib/Util.js:80-105 | on valid input and prefix lengths 1 to 32 the answer is null exactly when the whole subnet is the server's or taken; otherwise a valid address in the server's subnet, not the server's, not taken, and the least such |

## Left out

- `Util.promisify` (src/lib/Util.js:20-53) is HTTP request and response glue with Promise chaining and logging. It has no algorithm to state.
- `Util.exec` (src/lib/Util.js:55-78) spawns a shell command and logs. It is a foreign call with side effects.
- Prefix lengths outside 0 to 32 are not modelled: the model's domain is the range of CIDR prefix lengths that callers pass, and every operation requires `0 <= prefixLength <= 32`. Outside it `**` and `-` work in floating point: above 32 the power is a fraction, and below -21 subtracting 1 from it rounds.
- `parseInt` is modelled with exact integers. A digit run whose value is above 2^53 would be rounded to a double in JavaScript; the model keeps its exact value. Such a block is above 255 either way, so `isValidIPv4` is unaffected.
- The `+` in `(acc << 8) + parseInt(...)` is exact in the model. In JavaScript it is a double addition, which is exact for every value the validator accepts. On invalid text whose blocks parse to huge numbers the two may differ.
- JsString.NumberToString: prints plain decimal for every integer, while JavaScript switches to exponent form from 10^21 in magnitude; numberToIp prints only values 0 to 255, so the allocator is unaffected.
- JavaScript's `-0` and `0` are one value in the model. This is also how `Set.has` compares numbers (SameValueZero).
- The extra arguments that `Array.prototype.map` passes to `ipToNumber` are ignored. This matches the source, which never reads them.
- The running time of the scan, up to 2^(32 - prefixLength) iterations, is not modelled.
- The JavaScript `Set` is a mutable object built step by step. The model builds the same contents as one immutable `set` value.

=== FILE: allocator.dfy ===
/** `Util.findSmallestAvailableIp`: the exclusion set, the scan over the
    signed range, and what the scan's answer means for the addresses of the
    subnet. */
module Allocator {

  import opened JsNumber
  import opened JsString
  import opened Validator
  import opened Codec
  import opened Subnet

  datatype Option<T> = None | Some(value: T)

  // ---------------------------------------------------------------------------
  // The exclusion set
  // ---------------------------------------------------------------------------

  /** `new Set(takenIps.map(ipToNumber))` followed by `add(serverIpNumber)`. */
  function ExclusionSet(serverIp: string, takenIps: seq<string>): (excluded: set<Number>)
    ensures IpToNumber(serverIp) in excluded
    ensures forall t :: t in takenIps ==> IpToNumber(t) in excluded
    ensures forall x :: x in excluded ==> x == IpToNumber(serverIp) || exists t :: t in takenIps && x == IpToNumber(t)
  {
    (set t | t in takenIps :: IpToNumber(t)) + {IpToNumber(serverIp)}
  }

  /** The integers an exclusion set holds: `has(ip)` on an integer ip asks
      exactly this. A NaN entry matches no integer. */
  function Integers(excluded: set<Number>): (ints: set<int>)
    ensures forall x :: x in ints <==> Num(x) in excluded
  {
    set x | x in excluded && x.Num? :: x.value
  }

  // ---------------------------------------------------------------------------
  // The first free integer of an interval
  // ---------------------------------------------------------------------------

  /** The smallest integer of [lo, hi] that is not in excluded, if any. */
  function FirstFree(lo: int, hi: int, excluded: set<int>): (r: Option<int>)
    ensures r.Some? ==> lo <= r.value <= hi && r.value !in excluded
    decreases hi - lo
  {
    if lo > hi then None
    else if lo !in excluded then Some(lo)
    else FirstFree(lo + 1, hi, excluded)
  }

  /** FirstFree finds the least free integer: every integer of [lo, hi]
      before it is in the set, and it finds None exactly when all of
      [lo, hi] is. */
  lemma {:induction false} FirstFreeSpec(lo: int, hi: int, excluded: set<int>)
    ensures var r := FirstFree(lo, hi, excluded);
      && (r.Some? ==> forall x :: lo <= x < r.value ==> x in excluded)
      && (r.None? <==> forall x :: lo <= x <= hi ==> x in excluded)
    decreases hi - lo
  {
    if lo <= hi && lo in excluded {
      FirstFreeSpec(lo + 1, hi, excluded);
    }
  }

  /** FirstFree is determined by its declarative contract: any r that meets
      it is the answer. */
  lemma FirstFreeUnique(lo: int, hi: int, excluded: set<int>, r: Option<int>)
    requires r.Some? ==> lo <= r.value <= hi && r.value !in excluded
    requires r.Some? ==> forall x :: lo <= x < r.value ==> x in excluded
    requires r.None? ==> forall x :: lo <= x <= hi ==> x in excluded
    ensures FirstFree(lo, hi, excluded) == r
  {
    FirstFreeSpec(lo, hi, excluded);
  }

  function ShiftOption(r: Option<int>, d: int): (s: Option<int>)
    ensures s.None? <==> r.None?
    ensures r.Some? ==> s.value - d == r.value
  {
    if r.None? then None else Some(r.value + d)
  }

  // ---------------------------------------------------------------------------
  // findSmallestAvailableIp
  // ---------------------------------------------------------------------------

  /** The integer at which the scan stops: the first one in
      [rangeStart, rangeEnd] the exclusion set does not hold. */
  function Scan(serverIp: string, prefixLength: int, takenIps: seq<string>): (r: Option<int>)
    requires IsPrefixLength(prefixLength)
  {
    var start := RangeStart(IpToNumber(serverIp), prefixLength);
    FirstFree(start, RangeEnd(start, prefixLength), Integers(ExclusionSet(serverIp, takenIps)))
  }

  /** The value returned for the integer the scan stopped at: its
      numberToIp text, or null. */
  function Answer(ip: Option<int>): Option<string>
  {
    if ip.None? then None else Some(NumberToIp(ip.value))
  }

  /** findSmallestAvailableIp as a function: the text of the first free
      integer of the range, or null. */
  function Allocate(serverIp: string, prefixLength: int, takenIps: seq<string>): Option<string>
    requires IsPrefixLength(prefixLength)
  {
    Answer(Scan(serverIp, prefixLength, takenIps))
  }

  /** The range is empty only by ending one below its start. */
  lemma RangeOrdered(anchor: Number, prefixLength: int)
    requires IsPrefixLength(prefixLength)
    ensures RangeStart(anchor, prefixLength) <= RangeEnd(RangeStart(anchor, prefixLength), prefixLength) + 1
  {
    if prefixLength == 0 {
      PrefixZeroRange(anchor);
    } else {
      SignedRange(anchor, prefixLength);
    }
  }

  /** The answer of a scan of [start, end] against an exclusion set is null
      exactly when every integer of the interval is excluded, and otherwise
      the text of the least integer of the interval that is not. */
  lemma AnswerMeaning(start: int, end: int, excluded: set<Number>)
    ensures var r := Answer(FirstFree(start, end, Integers(excluded)));
      && (r.None? <==> forall ip :: start <= ip <= end ==> Num(ip) in excluded)
      && (r.Some? ==> exists ip :: && start <= ip <= end && Num(ip) !in excluded
                                  && (forall x :: start <= x < ip ==> Num(x) in excluded)
                                  && r.value == NumberToIp(ip))
  {
    var ints := Integers(excluded);
    FirstFreeSpec(start, end, ints);
    var scan := FirstFree(start, end, ints);
    if scan.Some? {
      var ip := scan.value;
      assert Answer(scan).value == NumberToIp(ip);
    }
  }

  /** findSmallestAvailableIp answers null exactly when every integer of the
      range is in the exclusion set, and otherwise the text of the least
      integer of the range that is not. */
  lemma AllocateMeaning(serverIp: string, prefixLength: int, takenIps: seq<string>)
    requires IsPrefixLength(prefixLength)
    ensures var r := Allocate(serverIp, prefixLength, takenIps);
      var excluded := ExclusionSet(serverIp, takenIps);
      var start := RangeStart(IpToNumber(serverIp), prefixLength);
      var end := RangeEnd(start, prefixLength);
      && (r.None? <==> forall ip :: start <= ip <= end ==> Num(ip) in excluded)
      && (r.Some? ==> exists ip :: && start <= ip <= end && Num(ip) !in excluded
                                  && (forall x :: start <= x < ip ==> Num(x) in excluded)
                                  && r.value == NumberToIp(ip))
  {
    var start := RangeStart(IpToNumber(serverIp), prefixLength);
    AnswerMeaning(start, RangeEnd(start, prefixLength), ExclusionSet(serverIp, takenIps));
  }

  /** The loop of findSmallestAvailableIp: ip walks up from rangeStart and
      the first ip the set does not hold is the answer; None when the range
      is exhausted. */
  method ScanRange(rangeStart: int, rangeEnd: int, takenIpNumbers: set<Number>) returns (r: Option<int>)
    requires rangeStart <= rangeEnd + 1
    ensures r.Some? ==> rangeStart <= r.value <= rangeEnd && Num(r.value) !in takenIpNumbers
    ensures r.Some? ==> forall ip :: rangeStart <= ip < r.value ==> Num(ip) in takenIpNumbers
    ensures r.None? <==> forall ip :: rangeStart <= ip <= rangeEnd ==> Num(ip) in takenIpNumbers
    ensures r == FirstFree(rangeStart, rangeEnd, Integers(takenIpNumbers))
  {
    ghost var ints := Integers(takenIpNumbers);
    var ip := rangeStart;
    while ip <= rangeEnd
      invariant rangeStart <= ip <= rangeEnd + 1
      invariant forall x :: rangeStart <= x < ip ==> Num(x) in takenIpNumbers
      invariant FirstFree(ip, rangeEnd, ints) == FirstFree(rangeStart, rangeEnd, ints)
      decreases rangeEnd - ip
    {
      if Num(ip) !in takenIpNumbers {
        return Some(ip);
      }
      ip := ip + 1;
    }
    return None;
  }

  /** findSmallestAvailableIp: the server number, the range, the exclusion
      set, then the scan; the integer found is printed with numberToIp. */
  method FindSmallestAvailableIp(serverIp: string, prefixLength: int, takenIps: seq<string>)
    returns (r: Option<string>)
    requires IsPrefixLength(prefixLength)
    ensures r == Allocate(serverIp, prefixLength, takenIps)
    ensures r.Some? ==> IsValidIPv4(r.value)
  {
    var serverIpNumber := IpToNumber(serverIp);
    var rangeStart := RangeStart(serverIpNumber, prefixLength);
    var rangeEnd := RangeEnd(rangeStart, prefixLength);
    var takenIpNumbers := ExclusionSet(serverIp, takenIps);
    RangeOrdered(serverIpNumber, prefixLength);
    var ip := ScanRange(rangeStart, rangeEnd, takenIpNumbers);
    if ip.None? {
      return None;
    }
    AllocatedIsFree(serverIp, prefixLength, takenIps);
    return Some(NumberToIp(ip.value));
  }

  // ---------------------------------------------------------------------------
  // What the answer means
  // ---------------------------------------------------------------------------

  /** With prefix length 0 the range is empty and the answer is always null,
      although a /0 subnet holds every address. */
  lemma PrefixZeroYieldsNull(serverIp: string, takenIps: seq<string>)
    ensures Allocate(serverIp, 0, takenIps) == None
  {
    PrefixZeroRange(IpToNumber(serverIp));
  }

  /** With prefix length 32 the range is the server number alone, which is
      excluded: the answer is null whenever the server address reads as a
      signed 32-bit integer, as every address that passes isValidIPv4 does. */
  lemma PrefixThirtyTwoYieldsNull(serverIp: string, takenIps: seq<string>)
    requires IpToNumber(serverIp).Num? && IsInt32(IpToNumber(serverIp).value)
    ensures Allocate(serverIp, 32, takenIps) == None
  {
    var anchor := IpToNumber(serverIp);
    var start := RangeStart(anchor, 32);
    SingleAddressRange(anchor);
    assert Num(start) in ExclusionSet(serverIp, takenIps);
  }

  /** With prefix length 32 the range is [x, x] for the signed reading x of
      the anchor. */
  lemma SingleAddressRange(anchor: Number)
    ensures var start := RangeStart(anchor, 32);
      start == NumberToInt32(anchor) && RangeEnd(start, 32) == start
  {
    SignedRange(anchor, 32);
    Pow2Values();
    assert BlockSize(32) == 1;
  }

  /** The address handed out is free: it reads back (through ipToNumber) to
      a number that is neither the server's nor any taken address's, and it
      passes isValidIPv4. */
  lemma AllocatedIsFree(serverIp: string, prefixLength: int, takenIps: seq<string>)
    requires IsPrefixLength(prefixLength)
    requires Allocate(serverIp, prefixLength, takenIps).Some?
    ensures var text := Allocate(serverIp, prefixLength, takenIps).value;
      && IsValidIPv4(text)
      && IpToNumber(text) != IpToNumber(serverIp)
      && forall t :: t in takenIps ==> IpToNumber(text) != IpToNumber(t)
  {
    var ip := Scan(serverIp, prefixLength, takenIps).value;
    var text := NumberToIp(ip);
    assert IsInt32(ip) by {
      var start := RangeStart(IpToNumber(serverIp), prefixLength);
      assert IsInt32(start) && IsInt32(RangeEnd(start, prefixLength));
    }
    NumberRoundTrip(ip);
    assert IpToNumber(text) == Num(ip);
    DecodeFormats(ip);
    FormatIsValid(ToUint32(ip));
  }

  // ---------------------------------------------------------------------------
  // The answer in unsigned terms
  // ---------------------------------------------------------------------------

  /** The unsigned readings of the signed 32-bit integers of a set: the
      unsigned 32-bit values whose signed reading is in the set. */
  function UnsignedReadings(ints: set<int>): set<int>
  {
    set u | 0 <= u < TWO32 && ToInt32(u) in ints
  }

  /** A signed 32-bit integer is in a set exactly when its unsigned reading
      is among the set's unsigned readings. */
  lemma UnsignedMembership(ints: set<int>, x: int)
    requires IsInt32(x)
    ensures x in ints <==> ToUint32(x) in UnsignedReadings(ints)
  {
    SignedFromUnsigned(x);
    SignedReading(ToUint32(x));
  }

  /** The unsigned reading of a signed value that a shift of 0 or 2^32
      brings into [0, 2^32). */
  lemma UnsignedOfShifted(x: int, shift: int)
    requires shift == 0 || shift == TWO32
    requires 0 <= x + shift < TWO32
    ensures ToUint32(x) == x + shift
  {
    ModUnique(x, TWO32, -shift / TWO32, x + shift);
  }

  /** Scanning a signed interval that a shift of 0 or 2^32 carries into
      [0, 2^32) is scanning the shifted interval against the unsigned
      readings of the exclusions: the first free value moves by the shift. */
  lemma {:induction false} ShiftedScan(start: int, end: int, shift: int, ints: set<int>)
    requires shift == 0 || shift == TWO32
    requires -TWO31 <= start && IsInt32(end)
    requires 0 <= start + shift && end + shift < TWO32
    ensures FirstFree(start + shift, end + shift, UnsignedReadings(ints)) == ShiftOption(FirstFree(start, end, ints), shift)
    decreases end - start
  {
    if start <= end {
      UnsignedOfShifted(start, shift);
      UnsignedMembership(ints, start);
      if start in ints {
        ShiftedScan(start + 1, end, shift, ints);
        assert (start + 1) + shift == (start + shift) + 1;
      }
    }
  }

  /** A signed scan result and an unsigned one agree: both found nothing,
      or the unsigned one is the unsigned reading of the signed one. */
  predicate SameStop(scan: Option<int>, free: Option<int>)
  {
    && (scan.None? <==> free.None?)
    && (scan.Some? ==> free.value == ToUint32(scan.value))
  }

  /** The scan of a signed interval that a shift of 0 or 2^32 carries onto
      u's block stops at the signed reading of the address where the
      unsigned scan of the block stops. */
  lemma ShiftedBlockScan(start: int, end: int, shift: int, ints: set<int>, u: nat, prefixLength: int)
    requires shift == 0 || shift == TWO32
    requires IsInt32(start) && IsInt32(end)
    requires u < TWO32 && IsPrefixLength(prefixLength)
    requires start + shift == Network(u, prefixLength)
    requires end + shift == Network(u, prefixLength) + BlockSize(prefixLength) - 1
    ensures SameStop(FirstFree(start, end, ints),
                     FirstFree(Network(u, prefixLength), Network(u, prefixLength) + BlockSize(prefixLength) - 1,
                               UnsignedReadings(ints)))
  {
    ShiftedScan(start, end, shift, ints);
    var scan := FirstFree(start, end, ints);
    if scan.Some? {
      UnsignedOfShifted(scan.value, shift);
    }
  }

  /** A signed answer that agrees in unsigned reading with the scan of u's
      block prints as the reference answer. */
  lemma PrintedAnswer(scan: Option<int>, u: nat, prefixLength: int, addrs: set<int>)
    requires u < TWO32 && IsPrefixLength(prefixLength)
    requires SameStop(scan, FirstFree(Network(u, prefixLength), Network(u, prefixLength) + BlockSize(prefixLength) - 1, addrs))
    ensures Answer(scan) == SubnetAnswer(u, prefixLength, addrs)
  {
    var free := FirstFree(Network(u, prefixLength), Network(u, prefixLength) + BlockSize(prefixLength) - 1, addrs);
    if scan.Some? {
      var v := scan.value;
      DecodeFormats(v);
      assert Answer(scan) == Some(NumberToIp(v));
      assert SubnetAnswer(u, prefixLength, addrs) == Some(FormatAddress(free.value));
    }
  }

  /** The reference answer in unsigned terms: the dotted quad of the least
      address of u's block that is not in addrs, or null when the whole
      block is taken. */
  function SubnetAnswer(u: nat, prefixLength: int, addrs: set<int>): Option<string>
    requires u < TWO32 && IsPrefixLength(prefixLength)
  {
    var net := Network(u, prefixLength);
    var free := FirstFree(net, net + BlockSize(prefixLength) - 1, addrs);
    if free.None? then None else Some(FormatAddress(free.value))
  }

  /** The reference answer is null exactly when every address of u's block
      is in addrs; otherwise it is a valid dotted quad whose address lies in
      u's block, is not in addrs, and is the least such address. */
  lemma SubnetAnswerMeaning(u: nat, prefixLength: int, addrs: set<int>)
    requires u < TWO32 && IsPrefixLength(prefixLength)
    ensures var r := SubnetAnswer(u, prefixLength, addrs);
      var net := Network(u, prefixLength);
      && (r.None? <==> forall a :: net <= a < net + BlockSize(prefixLength) ==> a in addrs)
      && (r.Some? ==> && IsValidIPv4(r.value)
                      && Network(AddressOf(r.value), prefixLength) == net
                      && AddressOf(r.value) !in addrs
                      && forall a :: net <= a < AddressOf(r.value) ==> a in addrs)
  {
    SubnetAnswerNull(u, prefixLength, addrs);
    SubnetAnswerFound(u, prefixLength, addrs);
  }

  lemma SubnetAnswerNull(u: nat, prefixLength: int, addrs: set<int>)
    requires u < TWO32 && IsPrefixLength(prefixLength)
    ensures var net := Network(u, prefixLength);
      SubnetAnswer(u, prefixLength, addrs).None? <==>
        forall a :: net <= a < net + BlockSize(prefixLength) ==> a in addrs
  {
    var net := Network(u, prefixLength);
    FirstFreeSpec(net, net + BlockSize(prefixLength) - 1, addrs);
  }

  lemma SubnetAnswerFound(u: nat, prefixLength: int, addrs: set<int>)
    requires u < TWO32 && IsPrefixLength(prefixLength)
    ensures var r := SubnetAnswer(u, prefixLength, addrs);
      r.Some? ==> IsLeastFree(r.value, Network(u, prefixLength), prefixLength, addrs)
  {
    var net := Network(u, prefixLength);
    var free := FirstFree(net, net + BlockSize(prefixLength) - 1, addrs);
    if free.Some? {
      FormattedFree(u, prefixLength, addrs, free.value);
      assert SubnetAnswer(u, prefixLength, addrs) == Some(FormatAddress(free.value));
    }
  }

  /** a lies in the block that starts at net, is not in addrs, and is the
      least address of the block that is not. */
  predicate IsLeastFreeAddress(a: int, net: nat, prefixLength: int, addrs: set<int>)
    requires IsPrefixLength(prefixLength)
  {
    && 0 <= a
    && Network(a, prefixLength) == net
    && a !in addrs
    && forall b :: net <= b < a ==> b in addrs
  }

  /** text is a dotted quad whose address is the least free address of the
      block that starts at net. */
  predicate IsLeastFree(text: string, net: nat, prefixLength: int, addrs: set<int>)
    requires IsPrefixLength(prefixLength)
  {
    IsValidIPv4(text) && IsLeastFreeAddress(AddressOf(text), net, prefixLength, addrs)
  }

  /** The address the scan of u's block stops at is its least free address. */
  lemma FreeInBlock(u: nat, prefixLength: int, addrs: set<int>, a: int)
    requires u < TWO32 && IsPrefixLength(prefixLength)
    requires FirstFree(Network(u, prefixLength), Network(u, prefixLength) + BlockSize(prefixLength) - 1, addrs) == Some(a)
    ensures 0 <= a < TWO32
    ensures IsLeastFreeAddress(a, Network(u, prefixLength), prefixLength, addrs)
  {
    var net := Network(u, prefixLength);
    FirstFreeSpec(net, net + BlockSize(prefixLength) - 1, addrs);
    SameBlock(u, a, prefixLength);
  }

  /** The text of the least free address of u's block reads back as that
      address. */
  lemma FormattedFree(u: nat, prefixLength: int, addrs: set<int>, a: int)
    requires u < TWO32 && IsPrefixLength(prefixLength)
    requires FirstFree(Network(u, prefixLength), Network(u, prefixLength) + BlockSize(prefixLength) - 1, addrs) == Some(a)
    ensures 0 <= a < TWO32
    ensures IsLeastFree(FormatAddress(a), Network(u, prefixLength), prefixLength, addrs)
  {
    FreeInBlock(u, prefixLength, addrs, a);
    FormatIsValid(a);
  }

  /** The answer of the scan of a signed interval that a shift of 0 or
      2^32 carries onto the block of u is the reference answer for u, the
      set read as unsigned addresses. */
  lemma BlockAnswer(start: int, end: int, shift: int, ints: set<int>, u: nat, prefixLength: int)
    requires shift == 0 || shift == TWO32
    requires IsInt32(start) && IsInt32(end)
    requires u < TWO32 && IsPrefixLength(prefixLength)
    requires start + shift == Network(u, prefixLength)
    requires end + shift == Network(u, prefixLength) + BlockSize(prefixLength) - 1
    ensures Answer(FirstFree(start, end, ints)) == SubnetAnswer(u, prefixLength, UnsignedReadings(ints))
  {
    ShiftedBlockScan(start, end, shift, ints, u, prefixLength);
    PrintedAnswer(FirstFree(start, end, ints), u, prefixLength, UnsignedReadings(ints));
  }

  /** For prefix lengths 1 to 32, the answer of the signed scan of any
      anchor's range is the reference answer for the unsigned reading of the
      anchor, the set read as unsigned addresses. */
  lemma SignedUnsignedAnswer(anchor: Number, prefixLength: int, ints: set<int>)
    requires 1 <= prefixLength <= 32
    ensures var start := RangeStart(anchor, prefixLength);
      Answer(FirstFree(start, RangeEnd(start, prefixLength), ints))
        == SubnetAnswer(ToUint32(NumberToInt32(anchor)), prefixLength, UnsignedReadings(ints))
  {
    var u := ToUint32(NumberToInt32(anchor));
    var start := RangeStart(anchor, prefixLength);
    SignedRange(anchor, prefixLength);
    BlockAnswer(start, RangeEnd(start, prefixLength), if Network(u, prefixLength) < TWO31 then 0 else TWO32,
                ints, u, prefixLength);
  }

  /** For prefix lengths 1 to 32 the scan over the signed range finds what a
      scan of the unsigned block [net, net + size - 1] finds, with the
      exclusions read as unsigned addresses: the signed and unsigned orders
      agree on the block, so the answer is the numerically smallest free
      address of the block. */
  lemma UnsignedAgreement(serverIp: string, prefixLength: int, takenIps: seq<string>)
    requires 1 <= prefixLength <= 32
    ensures Allocate(serverIp, prefixLength, takenIps)
         == SubnetAnswer(ToUint32(NumberToInt32(IpToNumber(serverIp))), prefixLength,
                         UnsignedReadings(Integers(ExclusionSet(serverIp, takenIps))))
  {
    SignedUnsignedAnswer(IpToNumber(serverIp), prefixLength, Integers(ExclusionSet(serverIp, takenIps)));
  }

  /** Every string of the list passes isValidIPv4. */
  predicate AllValid(ips: seq<string>)
  {
    forall t :: t in ips ==> IsValidIPv4(t)
  }

  /** The unsigned addresses of the server and of the taken addresses. */
  function Addresses(serverIp: string, takenIps: seq<string>): (addrs: set<int>)
    requires IsValidIPv4(serverIp) && AllValid(takenIps)
    ensures AddressOf(serverIp) in addrs
    ensures forall t :: t in takenIps ==> AddressOf(t) in addrs
    ensures forall a :: a in addrs ==> a == AddressOf(serverIp) || exists t :: t in takenIps && a == AddressOf(t)
  {
    {AddressOf(serverIp)} + set t | t in takenIps :: AddressOf(t)
  }

  /** A set of Numbers that holds exactly the signed readings of a set of
      unsigned 32-bit addresses reads back, as unsigned values, as those
      addresses. */
  lemma ReadingsOfEncoded(excluded: set<Number>, addrs: set<int>)
    requires forall a :: a in addrs ==> IsUint32(a) && Num(ToInt32(a)) in excluded
    requires forall y :: Num(y) in excluded && IsInt32(y) ==> ToUint32(y) in addrs
    ensures UnsignedReadings(Integers(excluded)) == addrs
  {
    var us := UnsignedReadings(Integers(excluded));
    forall a | a in addrs
      ensures a in us
    {
    }
    forall u | u in us
      ensures u in addrs
    {
      assert ToUint32(ToInt32(u)) == u;
    }
  }

  /** On well-formed input the exclusion set, read as unsigned addresses, is
      the set of the server's and the taken addresses. */
  lemma ExclusionsAsAddresses(serverIp: string, takenIps: seq<string>)
    requires IsValidIPv4(serverIp) && AllValid(takenIps)
    ensures UnsignedReadings(Integers(ExclusionSet(serverIp, takenIps))) == Addresses(serverIp, takenIps)
  {
    var excluded := ExclusionSet(serverIp, takenIps);
    var addrs := Addresses(serverIp, takenIps);
    EncodeValid(serverIp);
    forall t | t in takenIps
      ensures IpToNumber(t) == Num(ToInt32(AddressOf(t)))
    {
      EncodeValid(t);
    }
    forall a | a in addrs
      ensures IsUint32(a) && Num(ToInt32(a)) in excluded
    {
      if a != AddressOf(serverIp) {
        var t :| t in takenIps && a == AddressOf(t);
      }
    }
    forall y | Num(y) in excluded && IsInt32(y)
      ensures ToUint32(y) in addrs
    {
      if Num(y) != IpToNumber(serverIp) {
        var t :| t in takenIps && Num(y) == IpToNumber(t);
      }
    }
    ReadingsOfEncoded(excluded, addrs);
  }

  /** findSmallestAvailableIp on well-formed input, prefix lengths 1 to 32:
      the answer is the dotted quad of the smallest address of the server's
      subnet that is neither the server's nor a taken one, and null when
      there is none. */
  lemma AllocateValid(serverIp: string, prefixLength: int, takenIps: seq<string>)
    requires 1 <= prefixLength <= 32
    requires IsValidIPv4(serverIp) && AllValid(takenIps)
    ensures Allocate(serverIp, prefixLength, takenIps)
         == SubnetAnswer(AddressOf(serverIp), prefixLength, Addresses(serverIp, takenIps))
  {
    EncodeValid(serverIp);
    assert ToUint32(NumberToInt32(IpToNumber(serverIp))) == AddressOf(serverIp);
    ExclusionsAsAddresses(serverIp, takenIps);
    UnsignedAgreement(serverIp, prefixLength, takenIps);
  }

  /** findSmallestAvailableIp on well-formed input, prefix lengths 1 to 32,
      in the terms of its purpose: null exactly when every address of the
      server's subnet is the server's or a taken one; otherwise a valid
      address of the server's subnet that is neither the server's nor any
      taken one, and the least such. */
  lemma AllocateInSubnet(serverIp: string, prefixLength: int, takenIps: seq<string>)
    requires 1 <= prefixLength <= 32
    requires IsValidIPv4(serverIp) && AllValid(takenIps)
    ensures var r := Allocate(serverIp, prefixLength, takenIps);
      var net := Network(AddressOf(serverIp), prefixLength);
      var addrs := Addresses(serverIp, takenIps);
      && (r.None? <==> forall a :: net <= a < net + BlockSize(prefixLength) ==> a in addrs)
      && (r.Some? ==> && IsValidIPv4(r.value)
                      && Network(AddressOf(r.value), prefixLength) == net
                      && AddressOf(r.value) != AddressOf(serverIp)
                      && (forall t :: t in takenIps ==> AddressOf(r.value) != AddressOf(t))
                      && forall a :: net <= a < AddressOf(r.value) ==> a in addrs)
  {
    AllocateValid(serverIp, prefixLength, takenIps);
    SubnetAnswerMeaning(AddressOf(serverIp), prefixLength, Addresses(serverIp, takenIps));
  }
}

=== FILE: codec.dfy ===
/** The two helpers inside `Util.findSmallestAvailableIp`: `ipToNumber`,
    which folds the dot-separated blocks into one number with a signed
    32-bit shift, and `numberToIp`, which reads the four octets back out with
    an unsigned shift. */
module Codec {

  import opened JsNumber
  import opened JsString
  import opened Validator

  /** One step of the reduce in ipToNumber, `(acc << 8) + value`: the shift
      works on the signed 32-bit reading of acc, the addition does not wrap. */
  function ShiftAdd(acc: Number, value: Number): Number
  {
    Add(Num(ShiftLeft(NumberToInt32(acc), 8)), value)
  }

  /** The reduce itself, left to right over the parsed blocks. */
  function Fold(acc: Number, values: seq<Number>): Number
    decreases |values|
  {
    if |values| == 0 then acc else Fold(ShiftAdd(acc, values[0]), values[1..])
  }

  /** `parseInt(part, 10)` of every block, in order. */
  function ParseBlocks(blocks: seq<string>): seq<Number>
  {
    seq(|blocks|, i requires 0 <= i < |blocks| => ParseInt(blocks[i]))
  }

  /** ipToNumber: the blocks of `ip.split('.')` parsed and folded from 0. */
  function IpToNumber(ip: string): Number
  {
    Fold(Num(0), ParseBlocks(Split(ip)))
  }

  /** numberToIp: the four octets, read from the top with `>>>` and masked
      with `& 255`, printed in decimal and joined by '.'. */
  function NumberToIp(num: int): string
  {
    Join([NumberToString(UnsignedShiftRight(num, 24)),
          NumberToString(And(UnsignedShiftRight(num, 16), 255)),
          NumberToString(And(UnsignedShiftRight(num, 8), 255)),
          NumberToString(And(num, 255))])
  }

  // ---------------------------------------------------------------------------
  // The unsigned reading of an address
  // ---------------------------------------------------------------------------

  /** The unsigned 32-bit address with octets a.b.c.d, most significant first. */
  function OctetsValue(a: nat, b: nat, c: nat, d: nat): nat
  {
    a * 0x100_0000 + b * 0x1_0000 + c * 0x100 + d
  }

  /** The unsigned address a dotted quad that passed isValidIPv4 denotes. */
  function AddressOf(str: string): (u: nat)
    requires IsValidIPv4(str)
    ensures u < TWO32
  {
    OctetsValue(OctetValue(str, 0), OctetValue(str, 1), OctetValue(str, 2), OctetValue(str, 3))
  }

  /** The canonical dotted-quad text of an unsigned 32-bit address. */
  function FormatAddress(u: nat): string
    requires u < TWO32
  {
    Join([Decimal(u / 0x100_0000), Decimal(u / 0x1_0000 % 256),
          Decimal(u / 0x100 % 256), Decimal(u % 256)])
  }

  /** Dotted-quad text in canonical form: four blocks of decimal digits with
      no superfluous leading zero, each at most 255. */
  predicate IsCanonicalQuad(str: string)
  {
    var blocks := Split(str);
    && |blocks| == 4
    && forall i :: 0 <= i < 4 ==> IsCanonicalDecimal(blocks[i]) && DigitsValue(blocks[i]) <= 255
  }

  // ---------------------------------------------------------------------------
  // Arithmetic on octets
  // ---------------------------------------------------------------------------

  /** The octets of OctetsValue(a, b, c, d) are a, b, c and d. */
  lemma Decompose(a: nat, b: nat, c: nat, d: nat)
    requires a <= 255 && b <= 255 && c <= 255 && d <= 255
    ensures var v := OctetsValue(a, b, c, d);
      v < TWO32 && v / 0x100_0000 == a && v / 0x1_0000 % 256 == b && v / 0x100 % 256 == c && v % 256 == d
  {
    var v := OctetsValue(a, b, c, d);
    ModUnique(v, 0x100_0000, a, b * 0x1_0000 + c * 0x100 + d);
    ModUnique(v, 0x1_0000, a * 0x100 + b, c * 0x100 + d);
    ModUnique(a * 0x100 + b, 0x100, a, b);
    ModUnique(v, 0x100, a * 0x1_0000 + b * 0x100 + c, d);
    ModUnique(a * 0x1_0000 + b * 0x100 + c, 0x100, a * 0x100 + b, c);
  }

  /** Every unsigned 32-bit address is the OctetsValue of its four octets. */
  lemma Recombine(u: nat)
    requires u < TWO32
    ensures u / 0x100_0000 <= 255
    ensures OctetsValue(u / 0x100_0000, u / 0x1_0000 % 256, u / 0x100 % 256, u % 256) == u
  {
    var q1, d := u / 0x100, u % 0x100;
    var q2, c := q1 / 0x100, q1 % 0x100;
    var a, b := q2 / 0x100, q2 % 0x100;
    assert u == q1 * 0x100 + d;
    assert q1 == q2 * 0x100 + c;
    assert q2 == a * 0x100 + b;
    assert u == a * 0x100_0000 + b * 0x1_0000 + c * 0x100 + d;
    ModUnique(u, 0x100_0000, a, b * 0x1_0000 + c * 0x100 + d);
    ModUnique(u, 0x1_0000, q2, c * 0x100 + d);
  }

  /** The arithmetic of one reduce step, for an accumulator that still fits
      in 24 bits: the signed shift followed by the unwrapped add agrees with
      ToInt32 of the exact value. */
  lemma ShiftAddOctet(x: nat, p: int)
    requires x < 0x100_0000 && 0 <= p <= 255
    ensures ShiftAdd(Num(ToInt32(x)), Num(p)) == Num(ToInt32(x * 256 + p))
  {
    Pow2Values();
    assert NumberToInt32(Num(ToInt32(x))) == x;
    assert ShiftLeft(x, 8) == ToInt32(x * 256);
  }

  // ---------------------------------------------------------------------------
  // Encoding and decoding
  // ---------------------------------------------------------------------------

  /** The reduce over four octets p0..p3 yields the signed reading of their address. */
  lemma FoldOctets(p0: int, p1: int, p2: int, p3: int)
    requires 0 <= p0 <= 255 && 0 <= p1 <= 255 && 0 <= p2 <= 255 && 0 <= p3 <= 255
    ensures Fold(Num(0), [Num(p0), Num(p1), Num(p2), Num(p3)]) == Num(ToInt32(OctetsValue(p0, p1, p2, p3)))
  {
    var x1 := p0;
    var x2 := x1 * 256 + p1;
    var x3 := x2 * 256 + p2;
    var x4 := x3 * 256 + p3;
    ShiftAddOctet(0, p0);
    ShiftAddOctet(x1, p1);
    ShiftAddOctet(x2, p2);
    ShiftAddOctet(x3, p3);
    assert ToInt32(0) == 0;
    calc {
      Fold(Num(0), [Num(p0), Num(p1), Num(p2), Num(p3)]);
      Fold(Num(ToInt32(x1)), [Num(p1), Num(p2), Num(p3)]);
      Fold(Num(ToInt32(x2)), [Num(p2), Num(p3)]);
      Fold(Num(ToInt32(x3)), [Num(p3)]);
      Num(ToInt32(x4));
    }
  }

  /** The blocks of an address that passed isValidIPv4 parse to its four octets. */
  lemma ParsedOctets(str: string)
    requires IsValidIPv4(str)
    ensures ParseBlocks(Split(str)) ==
      [Num(OctetValue(str, 0)), Num(OctetValue(str, 1)), Num(OctetValue(str, 2)), Num(OctetValue(str, 3))]
  {
    var values := ParseBlocks(Split(str));
    assert |values| == 4;
    assert values[0] == ParseInt(Split(str)[0]) && values[1] == ParseInt(Split(str)[1]);
    assert values[2] == ParseInt(Split(str)[2]) && values[3] == ParseInt(Split(str)[3]);
  }

  /** ipToNumber on a dotted quad that passed isValidIPv4 gives the signed
      32-bit reading of the address: addresses whose first octet is 128 or
      more come out negative. */
  lemma EncodeValid(str: string)
    requires IsValidIPv4(str)
    ensures IpToNumber(str) == Num(ToInt32(AddressOf(str)))
    ensures AddressOf(str) < TWO31 ==> IpToNumber(str) == Num(AddressOf(str))
    ensures AddressOf(str) >= TWO31 ==> IpToNumber(str) == Num(AddressOf(str) - TWO32)
  {
    var p0, p1, p2, p3 := OctetValue(str, 0), OctetValue(str, 1), OctetValue(str, 2), OctetValue(str, 3);
    var u := AddressOf(str);
    assert IpToNumber(str) == Num(ToInt32(u)) by {
      ParsedOctets(str);
      FoldOctets(p0, p1, p2, p3);
    }
    SignedReading(u);
  }

  /** numberToIp prints the four octets of the unsigned reading of num. */
  lemma DecodeFormats(num: int)
    ensures NumberToIp(num) == FormatAddress(ToUint32(num))
  {
    Pow2Values();
    var u := ToUint32(num);
    DivBound(u, 0x1_0000);
    DivBound(u, 0x100);
    AndLowOctet(u / 0x1_0000);
    AndLowOctet(u / 0x100);
    AndLowOctet(num);
    Recombine(u);
  }

  /** The address four dot-free blocks denote, when they pass the check. */
  lemma AddressOfBlocks(a: string, b: string, c: string, d: string)
    requires '.' !in a && '.' !in b && '.' !in c && '.' !in d
    requires IsValidIPv4(Join([a, b, c, d]))
    ensures IsOctetNumber(ParseInt(a)) && IsOctetNumber(ParseInt(b))
    ensures IsOctetNumber(ParseInt(c)) && IsOctetNumber(ParseInt(d))
    ensures AddressOf(Join([a, b, c, d])) ==
      OctetsValue(ParseInt(a).value, ParseInt(b).value, ParseInt(c).value, ParseInt(d).value)
  {
    ValidFromBlocks(a, b, c, d);
    SplitJoin([a, b, c, d]);
  }

  /** What FormatAddress prints passes isValidIPv4 and denotes the address it came from. */
  lemma FormatIsValid(u: nat)
    requires u < TWO32
    ensures IsValidIPv4(FormatAddress(u))
    ensures AddressOf(FormatAddress(u)) == u
  {
    var a, b, c, d := u / 0x100_0000, u / 0x1_0000 % 256, u / 0x100 % 256, u % 256;
    Recombine(u);
    NoDotInDecimal(a);
    NoDotInDecimal(b);
    NoDotInDecimal(c);
    NoDotInDecimal(d);
    ParseDecimal(a);
    ParseDecimal(b);
    ParseDecimal(c);
    ParseDecimal(d);
    ValidFromBlocks(Decimal(a), Decimal(b), Decimal(c), Decimal(d));
    AddressOfBlocks(Decimal(a), Decimal(b), Decimal(c), Decimal(d));
  }

  /** Codec round trip from numbers: encoding numberToIp(num) gives back num,
      up to the wrap of the signed shift (num is read modulo 2^32). */
  lemma NumberRoundTrip(num: int)
    ensures IpToNumber(NumberToIp(num)) == Num(ToInt32(num))
    ensures IsInt32(num) ==> IpToNumber(NumberToIp(num)) == Num(num)
  {
    var u := ToUint32(num);
    var text := FormatAddress(u);
    assert NumberToIp(num) == text by {
      DecodeFormats(num);
    }
    assert IpToNumber(text) == Num(ToInt32(u)) by {
      FormatIsValid(u);
      EncodeValid(text);
    }
    assert ToInt32(u) == ToInt32(num);
  }

  /** Printing the address of four canonical octet blocks gives back the blocks. */
  lemma FormatCanonical(a: string, b: string, c: string, d: string)
    requires IsCanonicalDecimal(a) && IsCanonicalDecimal(b) && IsCanonicalDecimal(c) && IsCanonicalDecimal(d)
    requires DigitsValue(a) <= 255 && DigitsValue(b) <= 255 && DigitsValue(c) <= 255 && DigitsValue(d) <= 255
    ensures OctetsValue(DigitsValue(a), DigitsValue(b), DigitsValue(c), DigitsValue(d)) < TWO32
    ensures FormatAddress(OctetsValue(DigitsValue(a), DigitsValue(b), DigitsValue(c), DigitsValue(d))) == Join([a, b, c, d])
  {
    Decompose(DigitsValue(a), DigitsValue(b), DigitsValue(c), DigitsValue(d));
    DecimalOfDigits(a);
    DecimalOfDigits(b);
    DecimalOfDigits(c);
    DecimalOfDigits(d);
  }

  /** Codec round trip from text: a canonical dotted quad survives encoding
      and decoding unchanged. */
  lemma TextRoundTrip(str: string)
    requires IsCanonicalQuad(str)
    ensures IsValidIPv4(str)
    ensures IpToNumber(str).Num?
    ensures NumberToIp(IpToNumber(str).value) == str
  {
    var blocks := Split(str);
    var a, b, c, d := blocks[0], blocks[1], blocks[2], blocks[3];
    assert blocks == [a, b, c, d];
    assert str == Join([a, b, c, d]) by {
      JoinSplit(str);
    }
    ParseDigits(a);
    ParseDigits(b);
    ParseDigits(c);
    ParseDigits(d);
    var v := OctetsValue(DigitsValue(a), DigitsValue(b), DigitsValue(c), DigitsValue(d));
    assert IsValidIPv4(str) && AddressOf(str) == v by {
      ValidFromBlocks(a, b, c, d);
      AddressOfBlocks(a, b, c, d);
    }
    assert IpToNumber(str) == Num(ToInt32(v)) by {
      EncodeValid(str);
    }
    assert NumberToIp(ToInt32(v)) == FormatAddress(v) by {
      DecodeFormats(ToInt32(v));
    }
    FormatCanonical(a, b, c, d);
  }
}

=== FILE: jsnumber.dfy ===
/** The part of JavaScript's Number semantics that the allocator relies on:
    integer values and NaN, the ToInt32/ToUint32 conversions that every bitwise
    operator applies to its operands (section 7.1.6 and 7.1.7 of ECMA-262),
    and the bitwise operators themselves, written arithmetically on the
    unsigned 32-bit reading of the operands. */
module JsNumber {

  const TWO31: int := 0x8000_0000
  const TWO32: int := 0x1_0000_0000

  /** A JavaScript number as the allocator meets it: an integer, or NaN,
      which is what parseInt yields for text without digits. */
  datatype Number = Num(value: int) | NaN

  predicate IsInt32(x: int) { -TWO31 <= x < TWO31 }

  predicate IsUint32(x: int) { 0 <= x < TWO32 }

  /** 2^k, by repeated squaring. */
  function Pow2(k: nat): (r: nat)
    ensures r >= 1
  {
    if k == 0 then 1
    else if k % 2 == 0 then Pow2(k / 2) * Pow2(k / 2)
    else 2 * Pow2(k - 1)
  }

  /** ToUint32 on an integer: the representative of x modulo 2^32 in [0, 2^32). */
  function ToUint32(x: int): (r: int)
    ensures IsUint32(r)
    ensures IsUint32(x) ==> r == x
  {
    x % TWO32
  }

  /** ToInt32 on an integer: the representative of x modulo 2^32 in [-2^31, 2^31). */
  function ToInt32(x: int): (r: int)
    ensures IsInt32(r)
    ensures IsInt32(x) ==> r == x
    ensures ToUint32(r) == ToUint32(x)
  {
    var u := ToUint32(x);
    if u >= TWO31 then u - TWO32 else u
  }

  /** ToInt32 of a Number: NaN converts to 0. */
  function NumberToInt32(x: Number): (r: int)
    ensures IsInt32(r)
    ensures x.NaN? ==> r == 0
    ensures x.Num? ==> ToUint32(r) == ToUint32(x.value)
  {
    match x
    case NaN => 0
    case Num(n) => ToInt32(n)
  }

  /** The `+` operator on Numbers: NaN is absorbing. */
  function Add(x: Number, y: Number): (r: Number)
    ensures r.Num? <==> x.Num? && y.Num?
  {
    if x.Num? && y.Num? then Num(x.value + y.value) else NaN
  }

  /** Bitwise AND of two non-negative integers, one binary digit at a time. */
  function BitAnd(a: nat, b: nat): nat
    decreases a
  {
    if a == 0 then 0
    else 2 * BitAnd(a / 2, b / 2) + (if a % 2 == 1 && b % 2 == 1 then 1 else 0)
  }

  /** Bitwise OR of two non-negative integers, one binary digit at a time. */
  function BitOr(a: nat, b: nat): nat
    decreases a + b
  {
    if a == 0 && b == 0 then 0
    else 2 * BitOr(a / 2, b / 2) + (if a % 2 == 1 || b % 2 == 1 then 1 else 0)
  }

  /** `x & y` */
  function And(x: int, y: int): (r: int)
    ensures IsInt32(r)
  {
    ToInt32(BitAnd(ToUint32(x), ToUint32(y)))
  }

  /** `x | y` */
  function Or(x: int, y: int): (r: int)
    ensures IsInt32(r)
  {
    ToInt32(BitOr(ToUint32(x), ToUint32(y)))
  }

  /** `~x`: every one of the 32 bits flipped. */
  function Not(x: int): (r: int)
    ensures IsInt32(r)
    ensures ToUint32(r) + ToUint32(x) == TWO32 - 1
    ensures r == -ToInt32(x) - 1
  {
    ToInt32(TWO32 - 1 - ToUint32(x))
  }

  /** `x << count`: the bits move up, those beyond bit 31 are lost, and the
      result is read back as a signed 32-bit value. */
  function ShiftLeft(x: int, count: nat): (r: int)
    requires count < 32
    ensures IsInt32(r)
  {
    ToInt32(ToUint32(x) * Pow2(count))
  }

  /** `x >>> count`: the bits move down and zeros fill in from the top. */
  function UnsignedShiftRight(x: int, count: nat): (r: int)
    requires count < 32
    ensures IsUint32(r)
  {
    var u, d := ToUint32(x), Pow2(count);
    DivBound(u, d);
    u / d
  }

  // ---------------------------------------------------------------------------
  // Arithmetic facts
  // ---------------------------------------------------------------------------

  /** Each step up doubles: 2^(k+1) = 2 * 2^k. */
  lemma {:induction false} Pow2Step(k: nat)
    ensures Pow2(k + 1) == 2 * Pow2(k)
    decreases k
  {
    if k % 2 == 1 {
      var m := (k + 1) / 2;
      Pow2Step(m - 1);
      Pow2Even(m);
      Pow2Even(m - 1);
      var p := Pow2(m - 1);
      calc {
        Pow2(k + 1);
        Pow2(m) * Pow2(m);
        (2 * p) * (2 * p);
        { Regroup(2 * p, p); Regroup(p, p); }
        2 * (2 * (p * p));
        2 * (2 * Pow2(k - 1));
        2 * Pow2(k);
      }
    }
  }

  /** 2^(2m) = 2^m * 2^m */
  lemma Pow2Even(m: nat)
    ensures Pow2(2 * m) == Pow2(m) * Pow2(m)
  {
    if m > 0 {
      assert (2 * m) % 2 == 0 && (2 * m) / 2 == m;
    }
  }

  lemma Pow2Values()
    ensures Pow2(8) == 256 && Pow2(16) == 0x1_0000 && Pow2(24) == 0x100_0000
    ensures Pow2(31) == TWO31 && Pow2(32) == TWO32
  {
    assert Pow2(2) == 4;
    assert Pow2(3) == 8;
    assert Pow2(6) == 64;
    assert Pow2(7) == 128;
    assert Pow2(14) == 0x4000;
    assert Pow2(15) == 0x8000;
    assert Pow2(30) == 0x4000_0000;
  }

  lemma {:induction false} Pow2Monotone(j: nat, k: nat)
    requires j <= k
    ensures Pow2(j) <= Pow2(k)
    decreases k
  {
    if j < k {
      Pow2Monotone(j, k - 1);
      Pow2Step(k - 1);
    }
  }

  /** Up to 2^32 for exponents up to 32. */
  lemma Pow2Bound(k: nat)
    requires k <= 32
    ensures Pow2(k) <= TWO32
  {
    Pow2Values();
    Pow2Monotone(k, 32);
  }

  /** Pow2 turns sums of exponents into products. */
  lemma {:induction false} Pow2Add(j: nat, k: nat)
    ensures Pow2(j + k) == Pow2(j) * Pow2(k)
    decreases k
  {
    if k > 0 {
      Pow2Add(j, k - 1);
      Pow2Step(j + (k - 1));
      Pow2Step(k - 1);
      var a, b := Pow2(j), Pow2(k - 1);
      calc {
        Pow2(j + k);
        2 * Pow2(j + (k - 1));
        2 * (a * b);
        { Regroup(a, b); }
        a * (2 * b);
        Pow2(j) * Pow2(k);
      }
    }
  }

  lemma Regroup(a: int, b: int)
    ensures 2 * (a * b) == a * (2 * b) == (2 * a) * b
  {
  }

  lemma MulMonotone(x: int, y: int, d: int)
    requires d >= 0 && x <= y
    ensures x * d <= y * d
  {
  }

  /** Quotient and remainder are the only ones: a = q*d + r with 0 <= r < d fixes both. */
  lemma ModUnique(a: int, d: int, q: int, r: int)
    requires d > 0 && 0 <= r < d && a == q * d + r
    ensures a / d == q && a % d == r
  {
    var q', r' := a / d, a % d;
    assert a == q' * d + r';
    if q > q' {
      MulMonotone(q' + 1, q, d);
      assert false;
    } else if q < q' {
      MulMonotone(q + 1, q', d);
      assert false;
    }
  }

  /** Euclidean division: a is the quotient times d plus the remainder. */
  lemma DivMod(a: int, d: int)
    requires d > 0
    ensures a == (a / d) * d + a % d && 0 <= a % d < d
  {
  }

  lemma DivBound(a: nat, d: nat)
    requires d >= 1
    ensures 0 <= a / d <= a
  {
    MulMonotone(1, d, a / d);
  }

  /** Peeling off the lowest binary digit: a mod 2p is twice (a/2) mod p plus that digit. */
  lemma ModDouble(a: nat, p: nat)
    requires p >= 1
    ensures a % (2 * p) == 2 * ((a / 2) % p) + a % 2
    ensures a / (2 * p) == (a / 2) / p
  {
    var q, r := (a / 2) / p, (a / 2) % p;
    assert a / 2 == q * p + r;
    assert a == q * (2 * p) + (2 * r + a % 2);
    ModUnique(a, 2 * p, q, 2 * r + a % 2);
  }

  lemma {:induction false} AndZero(a: nat)
    ensures BitAnd(a, 0) == 0
    decreases a
  {
    if a > 0 {
      AndZero(a / 2);
    }
  }

  lemma {:induction false} OrZero(a: nat)
    ensures BitOr(a, 0) == a
    decreases a
  {
    if a > 0 {
      OrZero(a / 2);
    }
  }

  /** AND with 2^k - 1 keeps exactly the low k bits. */
  lemma {:induction false} AndLowBits(a: nat, k: nat)
    ensures BitAnd(a, Pow2(k) - 1) == a % Pow2(k)
    decreases k
  {
    if k == 0 {
      AndZero(a);
      assert a % 1 == 0;
    } else if a == 0 {
      ModUnique(0, Pow2(k), 0, 0);
    } else {
      var p := Pow2(k - 1);
      var m := Pow2(k) - 1;
      Pow2Step(k - 1);
      assert m / 2 == p - 1 && m % 2 == 1;
      calc {
        BitAnd(a, m);
        2 * BitAnd(a / 2, m / 2) + a % 2;
        { AndLowBits(a / 2, k - 1); }
        2 * ((a / 2) % p) + a % 2;
        { ModDouble(a, p); }
        a % (2 * p);
      }
    }
  }

  /** OR with 2^k - 1 sets all of the low k bits. */
  lemma {:induction false} OrLowBits(a: nat, k: nat)
    ensures BitOr(a, Pow2(k) - 1) == a - a % Pow2(k) + Pow2(k) - 1
    decreases k
  {
    if k == 0 {
      OrZero(a);
    } else {
      var p := Pow2(k - 1);
      var m := Pow2(k) - 1;
      Pow2Step(k - 1);
      assert m / 2 == p - 1 && m % 2 == 1;
      var h := a / 2;
      assert BitOr(a, m) == 2 * BitOr(h, p - 1) + 1;
      OrLowBits(h, k - 1);
      assert BitOr(h, p - 1) == h - h % p + p - 1;
      ModDouble(a, p);
      assert a % Pow2(k) == 2 * (h % p) + a % 2;
      assert a == 2 * h + a % 2;
    }
  }

  /** AND with a mask and with its complement splits a value into two parts
      that add up to it. */
  lemma {:induction false} AndSplit(a: nat, m: nat, n: nat)
    requires a < Pow2(n) && m < Pow2(n)
    ensures BitAnd(a, m) + BitAnd(a, Pow2(n) - 1 - m) == a
    decreases n
  {
    if n > 0 && a > 0 {
      var p := Pow2(n - 1);
      var m' := Pow2(n) - 1 - m;
      Pow2Step(n - 1);
      assert m' / 2 == p - 1 - m / 2 && m' % 2 == 1 - m % 2;
      AndSplit(a / 2, m / 2, n - 1);
    }
  }

  lemma {:induction false} OrBound(a: nat, b: nat, n: nat)
    requires a < Pow2(n) && b < Pow2(n)
    ensures BitOr(a, b) < Pow2(n)
    decreases n
  {
    if n > 0 && !(a == 0 && b == 0) {
      Pow2Step(n - 1);
      OrBound(a / 2, b / 2, n - 1);
    }
  }

  /** `x & 255` is the lowest octet of x. */
  lemma AndLowOctet(x: int)
    ensures And(x, 255) == ToUint32(x) % 256
  {
    Pow2Values();
    AndLowBits(ToUint32(x), 8);
  }

  /** The signed reading of an unsigned 32-bit value: values from 2^31 up
      become negative. */
  lemma SignedReading(u: int)
    requires IsUint32(u)
    ensures u < TWO31 ==> ToInt32(u) == u
    ensures u >= TWO31 ==> ToInt32(u) == u - TWO32
  {
  }

  /** A signed 32-bit value read back from its unsigned reading. */
  lemma SignedFromUnsigned(x: int)
    requires IsInt32(x)
    ensures ToUint32(x) < TWO31 ==> x == ToUint32(x)
    ensures ToUint32(x) >= TWO31 ==> x == ToUint32(x) - TWO32
  {
    if x < 0 {
      ModUnique(x, TWO32, -1, x + TWO32);
    }
  }
}

=== FILE: jsstring.dfy ===
/** The string operations the allocator uses: `split('.')`, `join('.')`,
    `parseInt(_, 10)` and the conversion of a non-negative integer to its
    decimal text. */
module JsString {

  import opened JsNumber

  // ---------------------------------------------------------------------------
  // split and join on '.'
  // ---------------------------------------------------------------------------

  /** `s.split('.')`: the pieces between the dots, in order. Empty pieces
      are kept, so a string with k dots always yields k + 1 pieces. */
  function Split(s: string): (parts: seq<string>)
    ensures |parts| >= 1
    ensures forall i :: 0 <= i < |parts| ==> '.' !in parts[i]
    decreases |s|
  {
    if |s| == 0 then [""]
    else
      var rest := Split(s[1..]);
      if s[0] == '.' then [""] + rest
      else [[s[0]] + rest[0]] + rest[1..]
  }

  /** `parts.join('.')` */
  function Join(parts: seq<string>): string
    decreases |parts|
  {
    if |parts| == 0 then ""
    else if |parts| == 1 then parts[0]
    else parts[0] + "." + Join(parts[1..])
  }

  predicate NoDots(parts: seq<string>)
  {
    forall i :: 0 <= i < |parts| ==> '.' !in parts[i]
  }

  /** Joining the pieces of a split gives back the original text. */
  lemma {:induction false} JoinSplit(s: string)
    ensures Join(Split(s)) == s
    decreases |s|
  {
    if |s| > 0 {
      var rest := Split(s[1..]);
      JoinSplit(s[1..]);
      if s[0] == '.' {
        assert Join([""] + rest) == "" + "." + Join(rest);
      } else if |rest| == 1 {
        assert Split(s) == [[s[0]] + rest[0]];
      } else {
        var parts := Split(s);
        assert parts[1..] == rest[1..];
        assert Join(parts) == [s[0]] + rest[0] + "." + Join(rest[1..]);
        assert Join(rest) == rest[0] + "." + Join(rest[1..]);
        assert s == [s[0]] + s[1..];
      }
    }
  }

  lemma {:induction false} SplitWord(w: string)
    requires '.' !in w
    ensures Split(w) == [w]
    decreases |w|
  {
    if |w| > 0 {
      assert '.' !in w[1..];
      SplitWord(w[1..]);
      assert [w[0]] + w[1..] == w;
    }
  }

  lemma {:induction false} SplitWordDot(w: string, t: string)
    requires '.' !in w
    ensures Split(w + "." + t) == [w] + Split(t)
    decreases |w|
  {
    var s := w + "." + t;
    if |w| == 0 {
      assert s[1..] == t;
    } else {
      assert s[1..] == w[1..] + "." + t;
      assert '.' !in w[1..];
      SplitWordDot(w[1..], t);
      assert [w[0]] + w[1..] == w;
    }
  }

  /** Splitting the join of dot-free pieces gives back the pieces. */
  lemma {:induction false} SplitJoin(parts: seq<string>)
    requires |parts| >= 1 && NoDots(parts)
    ensures Split(Join(parts)) == parts
    decreases |parts|
  {
    if |parts| == 1 {
      SplitWord(parts[0]);
    } else {
      SplitWordDot(parts[0], Join(parts[1..]));
      SplitJoin(parts[1..]);
      assert [parts[0]] + parts[1..] == parts;
    }
  }

  // ---------------------------------------------------------------------------
  // Decimal digits
  // ---------------------------------------------------------------------------

  predicate IsDigit(c: char) { '0' <= c <= '9' }

  predicate IsDigits(s: string)
  {
    forall i :: 0 <= i < |s| ==> IsDigit(s[i])
  }

  function DigitValue(c: char): nat
    requires IsDigit(c)
  {
    (c as int) - ('0' as int)
  }

  function DigitChar(v: nat): (c: char)
    requires v < 10
    ensures IsDigit(c) && DigitValue(c) == v
  {
    (v + '0' as int) as char
  }

  /** The number a string of decimal digits denotes, most significant digit first. */
  function DigitsValue(d: string): nat
    requires IsDigits(d)
    decreases |d|
  {
    if |d| == 0 then 0 else 10 * DigitsValue(d[..|d| - 1]) + DigitValue(d[|d| - 1])
  }

  /** Decimal text with no superfluous leading zero, the form Number::toString produces. */
  predicate IsCanonicalDecimal(d: string)
  {
    |d| >= 1 && IsDigits(d) && (|d| == 1 || d[0] != '0')
  }

  /** The decimal text of a non-negative integer; reading it back gives the integer. */
  function Decimal(n: nat): (d: string)
    ensures IsCanonicalDecimal(d)
    ensures DigitsValue(d) == n
    decreases n
  {
    if n < 10 then [DigitChar(n)]
    else
      var d := Decimal(n / 10) + [DigitChar(n % 10)];
      assert d[..|d| - 1] == Decimal(n / 10);
      d
  }

  /** Decimal text holds no dot. */
  lemma NoDotInDecimal(n: nat)
    ensures '.' !in Decimal(n)
  {
  }

  /** `String(x)` for an integer x below 10^21 in magnitude, where
      JavaScript prints plain decimal (numberToIp prints only octets):
      canonical decimal text for a non-negative x, and parseInt reads every
      x back. */
  function NumberToString(x: int): (s: string)
    ensures x >= 0 ==> IsCanonicalDecimal(s)
    ensures ParseInt(s) == Num(x)
  {
    if x < 0 then
      ParseNegative(Decimal(-x));
      "-" + Decimal(-x)
    else
      ParseDecimal(x);
      Decimal(x)
  }

  lemma {:induction false} LeadingDigitPositive(d: string)
    requires IsDigits(d) && |d| >= 1 && d[0] != '0'
    ensures DigitsValue(d) >= 1
    decreases |d|
  {
    if |d| > 1 {
      var p := d[..|d| - 1];
      assert p[0] == d[0];
      LeadingDigitPositive(p);
    }
  }

  /** Canonical decimal text is exactly what Decimal prints for its value. */
  lemma {:induction false} DecimalOfDigits(d: string)
    requires IsCanonicalDecimal(d)
    ensures Decimal(DigitsValue(d)) == d
    decreases |d|
  {
    if |d| > 1 {
      var p := d[..|d| - 1];
      assert p[0] == d[0];
      LeadingDigitPositive(p);
      DecimalOfDigits(p);
      var v := DigitsValue(d);
      assert v / 10 == DigitsValue(p) && v % 10 == DigitValue(d[|d| - 1]);
      assert DigitChar(v % 10) == d[|d| - 1];
      assert p + [d[|d| - 1]] == d;
    }
  }

  // ---------------------------------------------------------------------------
  // parseInt(_, 10)
  // ---------------------------------------------------------------------------

  /** The characters that parseInt skips before the number: ECMAScript's
      white space and line terminators. */
  predicate IsWhiteSpace(c: char)
  {
    || c == '\t' || c == '\n' || c == '\U{B}' || c == '\U{C}' || c == '\r' || c == ' '
    || c == '\U{A0}' || c == '\U{1680}' || ('\U{2000}' <= c <= '\U{200A}')
    || c == '\U{2028}' || c == '\U{2029}' || c == '\U{202F}' || c == '\U{205F}'
    || c == '\U{3000}' || c == '\U{FEFF}'
  }

  /** The text with its leading white space removed. */
  function TrimStart(s: string): string
    decreases |s|
  {
    if |s| > 0 && IsWhiteSpace(s[0]) then TrimStart(s[1..]) else s
  }

  /** TrimStart drops a prefix made of white space and nothing more: what
      remains is a suffix of s that does not start with white space. */
  lemma {:induction false} TrimStartSpec(s: string)
    ensures var t := TrimStart(s);
      && |t| <= |s| && t == s[|s| - |t|..]
      && (forall i :: 0 <= i < |s| - |t| ==> IsWhiteSpace(s[i]))
      && (|t| > 0 ==> !IsWhiteSpace(t[0]))
    decreases |s|
  {
    if |s| > 0 && IsWhiteSpace(s[0]) {
      TrimStartSpec(s[1..]);
    }
  }

  /** The longest prefix of s made of decimal digits. */
  function LeadingDigits(s: string): string
    decreases |s|
  {
    if |s| > 0 && IsDigit(s[0]) then [s[0]] + LeadingDigits(s[1..]) else ""
  }

  /** LeadingDigits is a prefix of s, made of digits, and cannot be extended. */
  lemma {:induction false} LeadingDigitsSpec(s: string)
    ensures var d := LeadingDigits(s);
      && d <= s && IsDigits(d)
      && (|d| < |s| ==> !IsDigit(s[|d|]))
    decreases |s|
  {
    if |s| > 0 && IsDigit(s[0]) {
      LeadingDigitsSpec(s[1..]);
    }
  }

  /** parseInt(s, 10): skip white space, read an optional sign, then the
      longest run of decimal digits; NaN when there are none. Anything after
      the digits is ignored. */
  function ParseInt(s: string): (r: Number)
    ensures r.NaN? <==>
      var t := TrimStart(s);
      var body := if |t| > 0 && (t[0] == '-' || t[0] == '+') then t[1..] else t;
      |body| == 0 || !IsDigit(body[0])
  {
    var t := TrimStart(s);
    var negative := |t| > 0 && t[0] == '-';
    var body := if |t| > 0 && (t[0] == '-' || t[0] == '+') then t[1..] else t;
    var digits := LeadingDigits(body);
    LeadingDigitsSpec(body);
    if |digits| == 0 then NaN
    else if negative then Num(0 - DigitsValue(digits))
    else Num(DigitsValue(digits))
  }

  /** The digit run of d + t is d itself when t does not start with a digit. */
  lemma {:induction false} LeadingDigitsPrefix(d: string, t: string)
    requires IsDigits(d)
    requires |t| == 0 || !IsDigit(t[0])
    ensures LeadingDigits(d + t) == d
    decreases |d|
  {
    if |d| > 0 {
      assert (d + t)[1..] == d[1..] + t;
      LeadingDigitsPrefix(d[1..], t);
      assert [d[0]] + d[1..] == d;
    }
  }

  /** Digits followed by text that does not start with a digit parse to the
      number the digits spell; the rest is ignored. */
  lemma ParseDigitsThen(d: string, t: string)
    requires IsDigits(d) && |d| >= 1
    requires |t| == 0 || !IsDigit(t[0])
    ensures ParseInt(d + t) == Num(DigitsValue(d))
  {
    var s := d + t;
    assert s[0] == d[0] && IsDigit(d[0]);
    assert !IsWhiteSpace(s[0]);
    assert TrimStart(s) == s;
    LeadingDigitsPrefix(d, t);
  }

  /** Text made only of digits parses to the number it spells. */
  lemma ParseDigits(d: string)
    requires IsDigits(d) && |d| >= 1
    ensures ParseInt(d) == Num(DigitsValue(d))
  {
    ParseDigitsThen(d, "");
    assert d + "" == d;
  }

  /** A minus sign followed by digits parses to the negated number. */
  lemma ParseNegative(d: string)
    requires IsDigits(d) && |d| >= 1
    ensures ParseInt("-" + d) == Num(0 - DigitsValue(d))
  {
    var s := "-" + d;
    assert s[0] == '-' && !IsWhiteSpace('-');
    assert TrimStart(s) == s;
    assert s[1..] == d;
    LeadingDigitsPrefix(d, "");
    assert d + "" == d;
    assert LeadingDigits(d) == d;
    assert ParseInt(s).Num?;
    assert ParseInt(s).value == 0 - DigitsValue(d);
  }

  /** Leading white space is skipped up to the first other character. */
  lemma {:induction false} TrimWhiteSpace(ws: string, rest: string)
    requires forall i :: 0 <= i < |ws| ==> IsWhiteSpace(ws[i])
    requires |rest| > 0 && !IsWhiteSpace(rest[0])
    ensures TrimStart(ws + rest) == rest
    decreases |ws|
  {
    if |ws| > 0 {
      assert (ws + rest)[1..] == ws[1..] + rest;
      TrimWhiteSpace(ws[1..], rest);
    }
  }

  /** Leading white space does not change what parseInt reads. */
  lemma ParseAfterWhiteSpace(ws: string, rest: string)
    requires forall i :: 0 <= i < |ws| ==> IsWhiteSpace(ws[i])
    requires |rest| > 0 && !IsWhiteSpace(rest[0])
    ensures ParseInt(ws + rest) == ParseInt(rest)
  {
    TrimWhiteSpace(ws, rest);
    assert TrimStart(rest) == rest;
  }

  /** parseInt of text that starts with a sign reads the digit run after
      the sign. */
  lemma ParseSignedRun(s: string, d: string)
    requires |s| > 0 && (s[0] == '-' || s[0] == '+')
    requires LeadingDigits(s[1..]) == d && IsDigits(d) && |d| >= 1
    ensures ParseInt(s) == Num(if s[0] == '-' then 0 - DigitsValue(d) else DigitsValue(d))
  {
    assert TrimStart(s) == s;
  }

  /** A minus sign followed by digits and text that does not start with a
      digit parses to the negated number. */
  lemma ParseMinusThen(d: string, t: string)
    requires IsDigits(d) && |d| >= 1
    requires |t| == 0 || !IsDigit(t[0])
    ensures ParseInt("-" + (d + t)) == Num(0 - DigitsValue(d))
  {
    var s := "-" + (d + t);
    assert s[0] == '-';
    assert LeadingDigits(s[1..]) == d by {
      assert s[1..] == d + t;
      LeadingDigitsPrefix(d, t);
    }
    ParseSignedRun(s, d);
  }

  /** A plus sign followed by digits and text that does not start with a
      digit parses to the number. */
  lemma ParsePlusThen(d: string, t: string)
    requires IsDigits(d) && |d| >= 1
    requires |t| == 0 || !IsDigit(t[0])
    ensures ParseInt("+" + (d + t)) == Num(DigitsValue(d))
  {
    var s := "+" + (d + t);
    assert s[0] == '+';
    assert LeadingDigits(s[1..]) == d by {
      assert s[1..] == d + t;
      LeadingDigitsPrefix(d, t);
    }
    ParseSignedRun(s, d);
  }

  /** Every text that parses to a number: white space, an optional sign,
      a run of digits, and anything that does not start with a digit. With
      the NaN case of ParseInt's contract this determines parseInt fully. */
  lemma ParseIntValue(ws: string, sign: string, d: string, t: string)
    requires forall i :: 0 <= i < |ws| ==> IsWhiteSpace(ws[i])
    requires sign == "" || sign == "+" || sign == "-"
    requires IsDigits(d) && |d| >= 1
    requires |t| == 0 || !IsDigit(t[0])
    ensures ParseInt(ws + (sign + (d + t))) == Num(if sign == "-" then 0 - DigitsValue(d) else DigitsValue(d))
  {
    var rest := sign + (d + t);
    SignThen(sign, d, t);
    ParseAfterWhiteSpace(ws, rest);
  }

  /** An optional sign, digits, and text that does not start with a digit:
      the text does not start with white space, and parses to the signed
      value of the digits. */
  lemma SignThen(sign: string, d: string, t: string)
    requires sign == "" || sign == "+" || sign == "-"
    requires IsDigits(d) && |d| >= 1
    requires |t| == 0 || !IsDigit(t[0])
    ensures |sign + (d + t)| > 0 && !IsWhiteSpace((sign + (d + t))[0])
    ensures ParseInt(sign + (d + t)) == Num(if sign == "-" then 0 - DigitsValue(d) else DigitsValue(d))
  {
    if sign == "" {
      assert sign + (d + t) == d + t;
      assert (d + t)[0] == d[0];
      ParseDigitsThen(d, t);
    } else if sign == "-" {
      ParseMinusThen(d, t);
    } else {
      ParsePlusThen(d, t);
    }
  }

  /** parseInt reads back what Decimal prints. */
  lemma ParseDecimal(n: nat)
    ensures ParseInt(Decimal(n)) == Num(n)
  {
    ParseDigits(Decimal(n));
  }
}

=== FILE: subnet.dfy ===
/** The subnet arithmetic of `Util.findSmallestAvailableIp`: the mask built
    from the prefix length, and the first and last address of the block that
    holds the server address, all computed with JavaScript's 32-bit bitwise
    operators and therefore held as signed 32-bit values. */
module Subnet {

  import opened JsNumber

  /** The prefix lengths the model covers: the CIDR prefix lengths 0 to 32
      that callers pass. */
  predicate IsPrefixLength(prefixLength: int)
  {
    0 <= prefixLength <= 32
  }

  /** The number of addresses in a block with this prefix length. */
  function BlockSize(prefixLength: int): (size: nat)
    requires IsPrefixLength(prefixLength)
    ensures 1 <= size <= TWO32
  {
    Pow2Bound(32 - prefixLength);
    Pow2(32 - prefixLength)
  }

  /** Multiples of size: one below n * size leaves room for a whole block below n * size. */
  lemma AlignedBelow(q: nat, size: nat, n: nat)
    requires q * size < n * size
    ensures q * size + size <= n * size
  {
    if q >= n {
      MulMonotone(n, q, size);
      assert false;
    }
    MulMonotone(q + 1, n, size);
    assert (q + 1) * size == q * size + size;
  }

  /** The block of an address below 2^32 ends at or below 2^32. */
  lemma AlignedFits(u: nat, prefixLength: int)
    requires IsPrefixLength(prefixLength)
    ensures u < TWO32 ==> (u / BlockSize(prefixLength)) * BlockSize(prefixLength) + BlockSize(prefixLength) <= TWO32
  {
    var size := BlockSize(prefixLength);
    var q := u / size;
    RoundDown(u, size);
    assert TWO32 == Pow2(prefixLength) * size by {
      Pow2Values();
      Pow2Add(prefixLength, 32 - prefixLength);
    }
    DivBound(u, size);
    if u < TWO32 {
      AlignedBelow(q, size, Pow2(prefixLength));
    }
  }

  /** The first address of the block of the unsigned address u: u with its
      low 32 - prefixLength bits cleared. */
  function Network(u: nat, prefixLength: int): (net: nat)
    requires IsPrefixLength(prefixLength)
    ensures net <= u < net + BlockSize(prefixLength)
    ensures net % BlockSize(prefixLength) == 0
    ensures u < TWO32 ==> net + BlockSize(prefixLength) <= TWO32
  {
    var size := BlockSize(prefixLength);
    RoundDown(u, size);
    AlignedFits(u, prefixLength);
    (u / size) * size
  }

  /** Rounding down to a multiple of d. */
  lemma RoundDown(u: nat, d: nat)
    requires d >= 1
    ensures 0 <= (u / d) * d <= u < (u / d) * d + d
    ensures ((u / d) * d) % d == 0
  {
    ModUnique((u / d) * d, d, u / d, 0);
  }

  /** `~(2 ** (32 - prefixLength) - 1)`: ones in the top prefixLength bits. */
  function Mask(prefixLength: int): (mask: int)
    requires IsPrefixLength(prefixLength)
    ensures IsInt32(mask)
    ensures ToUint32(mask) == TWO32 - BlockSize(prefixLength)
  {
    Not(BlockSize(prefixLength) - 1)
  }

  /** AND with the mask clears the low bits. */
  lemma MaskAnd(u: nat, prefixLength: int)
    requires u < TWO32 && IsPrefixLength(prefixLength)
    ensures BitAnd(u, TWO32 - BlockSize(prefixLength)) == Network(u, prefixLength)
  {
    var size := BlockSize(prefixLength);
    var m := TWO32 - size;
    Pow2Values();
    AndSplit(u, m, 32);
    assert Pow2(32) - 1 - m == size - 1;
    AndLowBits(u, 32 - prefixLength);
    assert size == Pow2(32 - prefixLength);
    assert BitAnd(u, size - 1) == u % size;
    DivMod(u, size);
    assert Network(u, prefixLength) == (u / size) * size;
  }

  /** OR with the complement of the mask sets the low bits. */
  lemma MaskOr(u: nat, prefixLength: int)
    requires u < TWO32 && IsPrefixLength(prefixLength)
    ensures BitOr(u, BlockSize(prefixLength) - 1) == Network(u, prefixLength) + BlockSize(prefixLength) - 1
    ensures BitOr(u, BlockSize(prefixLength) - 1) < TWO32
  {
    var size := BlockSize(prefixLength);
    Pow2Values();
    OrLowBits(u, 32 - prefixLength);
    DivMod(u, size);
    OrBound(u, size - 1, 32);
  }

  /** `serverIpNumber & mask`: a NaN server number reads as 0. */
  function RangeStart(anchor: Number, prefixLength: int): (start: int)
    requires IsPrefixLength(prefixLength)
    ensures IsInt32(start)
    ensures ToUint32(start) == Network(ToUint32(NumberToInt32(anchor)), prefixLength)
  {
    var u := ToUint32(NumberToInt32(anchor));
    MaskAnd(u, prefixLength);
    assert BitAnd(u, ToUint32(Mask(prefixLength))) == Network(u, prefixLength);
    And(NumberToInt32(anchor), Mask(prefixLength))
  }

  /** `rangeStart | ~mask`: the start with all of its low bits set. */
  function RangeEnd(start: int, prefixLength: int): (end: int)
    requires IsPrefixLength(prefixLength)
    ensures IsInt32(end)
    ensures ToUint32(end) == Network(ToUint32(start), prefixLength) + BlockSize(prefixLength) - 1
  {
    MaskOr(ToUint32(start), prefixLength);
    assert ToUint32(Not(Mask(prefixLength))) == BlockSize(prefixLength) - 1;
    Or(start, Not(Mask(prefixLength)))
  }

  // ---------------------------------------------------------------------------
  // Facts about the range
  // ---------------------------------------------------------------------------

  /** With prefix length 0 the mask is 0, the range starts at 0 and ends at
      -1: the scan loop that follows never runs. */
  lemma PrefixZeroRange(anchor: Number)
    ensures Mask(0) == 0
    ensures RangeStart(anchor, 0) == 0
    ensures RangeEnd(RangeStart(anchor, 0), 0) == -1
  {
    Pow2Values();
    assert BlockSize(0) == TWO32;
    var u := ToUint32(NumberToInt32(anchor));
    assert Network(u, 0) == 0 by {
      ModUnique(u, TWO32, 0, u);
    }
    var start := RangeStart(anchor, 0);
    assert start == 0 by {
      SignedFromUnsigned(start);
    }
    assert Network(0, 0) == 0 by {
      ModUnique(0, TWO32, 0, 0);
    }
    var end := RangeEnd(0, 0);
    assert end == -1 by {
      SignedFromUnsigned(end);
    }
  }

  /** A network address is its own network. */
  lemma NetworkOfNetwork(u: nat, prefixLength: int)
    requires IsPrefixLength(prefixLength)
    ensures Network(Network(u, prefixLength), prefixLength) == Network(u, prefixLength)
  {
    var net, size := Network(u, prefixLength), BlockSize(prefixLength);
    DivMod(net, size);
    ModUnique(net, size, net / size, 0);
  }

  /** Every address of a block has that block as its network: the block
      is the subnet of each of its addresses. */
  lemma SameBlock(u: nat, a: nat, prefixLength: int)
    requires IsPrefixLength(prefixLength)
    requires Network(u, prefixLength) <= a < Network(u, prefixLength) + BlockSize(prefixLength)
    ensures Network(a, prefixLength) == Network(u, prefixLength)
  {
    var net, size := Network(u, prefixLength), BlockSize(prefixLength);
    var q := net / size;
    assert net == q * size by {
      DivMod(net, size);
    }
    ModUnique(a, size, q, a - net);
  }

  /** An aligned block below 2^32 ends at or below 2^32; for prefix lengths
      1 to 32 one that starts below 2^31 ends at or below 2^31. */
  lemma BlockBounds(u: nat, prefixLength: int)
    requires u < TWO32 && 1 <= prefixLength <= 32
    ensures var net := Network(u, prefixLength);
      && net + BlockSize(prefixLength) <= TWO32
      && (net < TWO31 ==> net + BlockSize(prefixLength) <= TWO31)
  {
    var net, size := Network(u, prefixLength), BlockSize(prefixLength);
    var k := 32 - prefixLength;
    var q := net / size;
    assert net == q * size by {
      DivMod(net, size);
    }
    DivBound(net, size);
    var lo := Pow2(prefixLength - 1);
    assert TWO31 == lo * size by {
      Pow2Values();
      Pow2Add(prefixLength - 1, k);
    }
    if net < TWO31 {
      AlignedBelow(q, size, lo);
    }
  }

  /** For prefix lengths 1 to 32 the signed range is an honest interval: it
      holds BlockSize addresses, contains the server address, and is the
      signed reading of the unsigned block [net, net + size - 1], shifted
      down by 2^32 as a whole when the block lies in the upper half. */
  lemma SignedRange(anchor: Number, prefixLength: int)
    requires 1 <= prefixLength <= 32
    ensures var start := RangeStart(anchor, prefixLength);
      var end := RangeEnd(start, prefixLength);
      var net := Network(ToUint32(NumberToInt32(anchor)), prefixLength);
      var shift := if net < TWO31 then 0 else TWO32;
      && net + BlockSize(prefixLength) <= TWO32
      && (shift == 0 ==> net + BlockSize(prefixLength) <= TWO31)
      && start == net - shift
      && end == net + BlockSize(prefixLength) - 1 - shift
      && start <= NumberToInt32(anchor) <= end
  {
    var start := RangeStart(anchor, prefixLength);
    var end := RangeEnd(start, prefixLength);
    var a := NumberToInt32(anchor);
    var u := ToUint32(a);
    var net := Network(u, prefixLength);
    var size := BlockSize(prefixLength);
    BlockBounds(u, prefixLength);
    NetworkOfNetwork(u, prefixLength);
    assert ToUint32(end) == net + size - 1;
    SignedFromUnsigned(start);
    SignedFromUnsigned(end);
    SignedFromUnsigned(a);
  }
}

=== FILE: validator.dfy ===
/** `Util.isValidIPv4`, the dotted-quad check that `Util` provides next to
    the allocator; the allocator does not call it. */
module Validator {

  import opened JsNumber
  import opened JsString

  /** A block is acceptable when parseInt gives a number in [0, 255]. */
  predicate IsOctetNumber(x: Number)
  {
    x.Num? && 0 <= x.value <= 255
  }

  /** The loop over the blocks: the first block that parses to NaN, or to a
      value below 0 or above 255, makes the check fail. */
  function AllBlocksValid(blocks: seq<string>): (ok: bool)
    ensures ok <==> forall i :: 0 <= i < |blocks| ==> IsOctetNumber(ParseInt(blocks[i]))
    decreases |blocks|
  {
    if |blocks| == 0 then true
    else
      var value := ParseInt(blocks[0]);
      if value.NaN? then false
      else if value.value < 0 || value.value > 255 then false
      else AllBlocksValid(blocks[1..])
  }

  /** isValidIPv4: exactly four blocks, each parsing to an octet. */
  function IsValidIPv4(str: string): (ok: bool)
    ensures |Split(str)| != 4 ==> !ok
    ensures ok <==> |Split(str)| == 4 && forall i :: 0 <= i < 4 ==> IsOctetNumber(ParseInt(Split(str)[i]))
  {
    var blocks := Split(str);
    if |blocks| != 4 then false else AllBlocksValid(blocks)
  }

  /** The value of the i-th block of an address that passed the check. */
  function OctetValue(str: string, i: nat): (v: nat)
    requires IsValidIPv4(str) && i < 4
    ensures v <= 255
  {
    ParseInt(Split(str)[i]).value
  }

  /** Four dot-free blocks joined by dots pass exactly when each parses to an octet. */
  lemma ValidFromBlocks(a: string, b: string, c: string, d: string)
    requires '.' !in a && '.' !in b && '.' !in c && '.' !in d
    ensures IsValidIPv4(Join([a, b, c, d])) <==>
      IsOctetNumber(ParseInt(a)) && IsOctetNumber(ParseInt(b)) &&
      IsOctetNumber(ParseInt(c)) && IsOctetNumber(ParseInt(d))
  {
    var blocks := [a, b, c, d];
    SplitJoin(blocks);
    var str := Join(blocks);
    assert Split(str) == blocks;
    assert IsValidIPv4(str) == AllBlocksValid(blocks);
    assert blocks[0] == a && blocks[1] == b && blocks[2] == c && blocks[3] == d;
  }

  /** The blocks b, c and d pass on their own. */
  predicate RestValid(b: string, c: string, d: string)
  {
    && '.' !in b && '.' !in c && '.' !in d
    && IsOctetNumber(ParseInt(b)) && IsOctetNumber(ParseInt(c)) && IsOctetNumber(ParseInt(d))
  }

  /** Trailing text after the digits of a block is ignored: an octet
      followed by anything that does not start with a digit (and holds no
      dot) still passes, as in "1a.2.3.4". */
  lemma AcceptsTrailingText(digits: string, junk: string, b: string, c: string, d: string)
    requires IsDigits(digits) && |digits| >= 1 && DigitsValue(digits) <= 255
    requires '.' !in junk && (|junk| == 0 || !IsDigit(junk[0]))
    requires RestValid(b, c, d)
    ensures IsValidIPv4(Join([digits + junk, b, c, d]))
  {
    var block := digits + junk;
    ParseDigitsThen(digits, junk);
    assert IsOctetNumber(ParseInt(block));
    assert '.' !in block;
    ValidFromBlocks(block, b, c, d);
  }

  /** A minus sign in front of digits that spell zero is accepted, as in
      "-0.0.0.0": parseInt gives 0, which is within range. */
  lemma AcceptsNegativeZero(digits: string, b: string, c: string, d: string)
    requires IsDigits(digits) && |digits| >= 1 && DigitsValue(digits) == 0
    requires RestValid(b, c, d)
    ensures IsValidIPv4(Join(["-" + digits, b, c, d]))
  {
    ParseNegative(digits);
    ValidFromBlocks("-" + digits, b, c, d);
  }

  /** A minus sign in front of a non-zero number is refused. */
  lemma RejectsNegativeBlock(digits: string, b: string, c: string, d: string)
    requires IsDigits(digits) && |digits| >= 1 && DigitsValue(digits) >= 1
    requires '.' !in b && '.' !in c && '.' !in d
    ensures !IsValidIPv4(Join(["-" + digits, b, c, d]))
  {
    ParseNegative(digits);
    ValidFromBlocks("-" + digits, b, c, d);
  }

  /** An empty block (two dots in a row, or a leading or trailing dot)
      parses to NaN and is refused. */
  lemma RejectsEmptyBlock(a: string, b: string, c: string, d: string, i: nat)
    requires '.' !in a && '.' !in b && '.' !in c && '.' !in d
    requires i < 4 && [a, b, c, d][i] == ""
    ensures !IsValidIPv4(Join([a, b, c, d]))
  {
    assert ParseInt("") == NaN;
    ValidFromBlocks(a, b, c, d);
  }

  /** A value above 255 is refused. */
  lemma RejectsLargeBlock(digits: string, b: string, c: string, d: string)
    requires IsDigits(digits) && |digits| >= 1 && DigitsValue(digits) > 255
    requires '.' !in b && '.' !in c && '.' !in d
    ensures !IsValidIPv4(Join([digits, b, c, d]))
  {
    ParseDigits(digits);
    ValidFromBlocks(digits, b, c, d);
  }
}
